=== FILE: README.md ===
# asterix grammar compiler, modelled in Dafny

asterix turns a small grammar language into a Rust module `ast`. The grammar
is a comma-separated list of enum cases. Each case may define a type inline:
`Name : struct Name { .. }`, `Name : enum Name { .. }`, or the wrapper
`Name |Type|`. A case may also carry a payload, `Name(Type)`, use the
shorthand `|Name|`, or be a bare tag `Name`. The crate `asterix-impl` does
the work in three steps:

1. It parses the tokens into `Variant`, `Field` and `NewType` trees.
2. It hoists every inline definition into one type table with `flatten`.
3. It renders each table entry, then the root enum `Ast` over the top-level
   cases, then a `Visitor` trait with one `visit_<name>` function per enum of
   the table.

The model is a set of pure functions over immutable datatypes:

| file | module | what it holds |
|---|---|---|
| `wrappers.dfy` | `Wrappers` | `Option` and `Result` |
| `tokens.dfy` | `Tokens` | pre-lexed tokens, type references, identifiers, ASCII lower-casing |
| `ast.dfy` | `Ast` | `Variant`, `Field`, `NewType`, `EnumType`, `StructType`, `WrapperStruct`, and the shape the parser guarantees |
| `parser.dfy` | `Parser` | the recursive-descent parser, with errors reported as (found token, expected alternatives) |
| `printer.dfy` | `Printer` | the inverse of the parser, used to state round trips |
| `flatten.dfy` | `Flattener` | `flatten` as `Flatten`, an independent work-list version, closure and shape facts |
| `grammar.dfy` | `Grammar` | `Context` and `Context::parse` |
| `render.dfy` | `Render` | the items each entry renders to, and a small evaluator for the generated constructors and accessors |
| `visit.dfy` | `Visit` | `Visitor::new`, `func_impl`, `single_func` and the recursion filter |
| `generate.dfy` | `Generate` | `create_ast` and the whole expansion |
| `scenarios.dfy` | `Scenarios` | the repository's parsing examples, worked through the model |

Modelling choices:

- **Tokens are pre-lexed.** The token kinds are `Pipe`, `Colon`, `Comma`, `KwStruct`, `KwEnum`, `Ident(s)`, `Paren(inner)`, `Brace(inner)` and `Ty(t)`.
- **Types are abstract.** A type reference is either a plain name, `Path(n)`, or an opaque expression, `Other(text)`, such as `Box<Expr>`. A type expression is one `Ident` token or one `Ty` token. Parsing a type is this oracle.
- **Errors carry no spans.** A parse error records the token found (or the end of input) and the set of alternatives the parser would have accepted there, as syn's lookahead reports them: a lookahead lists only the alternatives whose test failed before the error.
- **Stray tokens in a payload are reported last.** syn does not reject tokens left over inside `( .. )` where they occur: it records the first such token and reports it as unexpected only once the whole grammar has parsed. The parser therefore returns, with each result, the first stray token seen so far (`Parsed.stray`, `Listed.stray`), and `ParseContext` turns it into an error only when nothing else failed.
- **Rendered code is structured, not token streams.** Declarations, methods, parameters and method bodies are datatypes. A small evaluator (`Construct`, `Access`) gives the generated constructors and accessors a meaning, so round trips can be stated against them.

Two behaviours of the code are modelled as written.

- **Table entries keep their inline definitions.** `flatten` pushes a clone of its argument before it clears anything (`asterix-impl/src/context.rs:40`).
  - `TableKeepsInline` shows that such entries differ from the cleared node.
  - `RenderIgnoresInline` shows that this never shows in the output, because cases and fields render only their names and types.
- **The recursion filter is never evaluated.** `single_func` builds a lazy iterator that filters the enum's cases, never consumes it, and emits an empty body. `VariantsToRecurse` is the set that filter would select if it were consumed, and the model characterises it.

## Model

| member | source | states |
|---|---|---|
| Tokens.Lower | asterix-impl/src/visitor.rs:69-75 | lower-casing keeps the length and maps each character on its own: `A`-`Z` move up by 32, to `a`-`z`, and everything else is unchanged |
| Tokens.LowerCollides | asterix-impl/src/context.rs:335-344 | two names lower-case to the same string exactly when they agree up to ASCII case |
| Ast.VariantChildren | asterix-impl/src/context.rs:44-47 | the inline definitions of a case list: each comes from some case, and every case's definition is listed |
| Parser.ParseType | asterix-impl/src/context.rs:192-193 | a type parses exactly when the next token is an identifier or a grouped type; it consumes that one token, and an identifier names the path type; otherwise the error expects a type |
| Parser.ParseParenType | asterix-impl/src/context.rs:140-143 | the contents of `( .. )` parse exactly when they start with a type token; the type is taken from that token, and the token after it, if any, is kept as the stray to report later rather than as an error now |
| Parser.ParseVariant | asterix-impl/src/context.rs:114-162 | each result consumes a non-empty prefix; an inline definition makes the payload the reference to its name; `\|Name\|` gives payload `Name` and no definition; a case without payload consumed only its name; `Name \|T\|` defines a wrapper `Name` around `T`; any first token other than `\|` or an identifier is an error expecting those two; a payload `Name(T ..)` carries the token after `T` as its stray; the result has identifier names when the input is well lexed |
| Parser.ParseVariants | asterix-impl/src/context.rs:266 | a comma-separated case list, with an optional trailing comma, yields cases of the parser's shape, with identifier names when the input is well lexed |
| Parser.ParseField | asterix-impl/src/context.rs:183-213 | when a type parses after `ident :`, the plain-type field is the result; an inline definition is read only when no type parses there, and then the field's type is the reference to its name; no identifier first is an error expecting one |
| Parser.ParseFields | asterix-impl/src/context.rs:286 | a comma-separated field list yields fields of the parser's shape |
| Parser.ParseNewType | asterix-impl/src/context.rs:233-250 | `struct` gives a struct, `enum` an enum, an identifier followed by `\|` a wrapper; an identifier not followed by `\|` is an error expecting `struct` or `enum` (the identifier test passed, so it is not listed); any other start is an error expecting all three |
| Parser.ParseEnum | asterix-impl/src/context.rs:258-270 | `enum Name { .. }`: on success the first three tokens are `enum`, the name and a brace group, the enum is named by the identifier, and parsing resumes after the braces |
| Parser.ParseStruct | asterix-impl/src/context.rs:278-290 | `struct Name { .. }`, with the same shape guarantees as an enum |
| Parser.ParseWrapper | asterix-impl/src/context.rs:298-308 | `Name \|T\|` parses exactly when it has that shape; the result is the wrapper `Name` around `T`, and parsing resumes after the closing pipe |
| Printer.NewTypeRoundTrip | asterix-impl/src/context.rs:233-308 | every definition of the parser's shape prints to tokens that parse back to it, leaving the following tokens unread |
| Printer.VariantRoundTrip | asterix-impl/src/context.rs:114-162 | every case of the parser's shape, in each form the printer produces (`Name : definition`, `Name(Type)`, `Name`), prints to tokens that parse back to it |
| Printer.ShorthandForm | asterix-impl/src/context.rs:120-127 | for any following tokens, `\|Name\|` parses to the case `Name` with payload `Name` and no definition, leaving those tokens unread |
| Printer.WrapperForm | asterix-impl/src/context.rs:144-156 | for any type and following tokens, `Name \|T\|` parses to the case `Name` defining the wrapper `Name` around `T` with payload `Name`, leaving those tokens unread |
| Printer.VariantsRoundTrip | asterix-impl/src/context.rs:266 | a case list prints, with or without a trailing comma, to tokens that parse back to the same list |
| Printer.FieldRoundTrip | asterix-impl/src/context.rs:183-213 | every field of the parser's shape prints to tokens that parse back to it |
| Printer.FieldsRoundTrip | asterix-impl/src/context.rs:286 | a field list prints, with or without a trailing comma, to tokens that parse back to the same list |
| Flattener.Table | asterix-impl/src/context.rs:37-65 | the table `flatten` returns: characterised by `TableChildren` (pre-order listing) and `FlattenByWorklist` (an independent work-list traversal) |
| Flattener.Flatten | asterix-impl/src/context.rs:37-65 | the node `flatten` leaves has every inline slot cleared and nothing else changed; the table starts with the node as it was; a node with no inline definitions (every wrapper, for one) gives itself and the table `[n]` |
| Flattener.FlatClear | asterix-impl/src/context.rs:44-59 | clearing produces a node without inline definitions, is all the change, and leaves a node without them untouched |
| Flattener.TableChildren | asterix-impl/src/context.rs:40-60 | the table is the node followed by the tables of its inline definitions, in declaration order: a pre-order listing |
| Flattener.FlattenByWorklist | asterix-impl/src/context.rs:37-65 | a depth-first work-list traversal lists exactly the table `flatten` returns |
| Flattener.TableClosed | asterix-impl/src/context.rs:44-59 | every definition held inline by a table entry is itself in the table |
| Flattener.TableInherits | asterix-impl/src/context.rs:40 | every table entry keeps the parser's shape and identifier names when the root has them |
| Flattener.TableKeepsInline | asterix-impl/src/context.rs:40 | the table's first entry is the copy taken before clearing: it still defines things inline and differs from the cleared node |
| Grammar.Hoist | asterix-impl/src/context.rs:72-87 | the table is the in-order concatenation of the tables of the cases that define a type; every top-level case is kept, in order, with its slot cleared |
| Grammar.ParseContext | asterix-impl/src/context.rs:67-89 | parsing a grammar succeeds exactly when its case list parses with no stray token; it fails with the list's error when the list fails, and otherwise with an unexpected-token error at the first stray |
| Grammar.HoistIsFlattenOfRoot | asterix-impl/src/context.rs:67-89 | the table is the root enum's own table without the root, and the cleared cases are the cases of the cleared root |
| Grammar.ParseContextFacts | asterix-impl/src/context.rs:67-89 | after a successful parse every case is cleared and, if it defined a type, refers to it by name and has it in the table; the table is closed under inline definitions, all entries have the parser's shape, and all are well named when the input is well lexed |
| Render.RenderEnum | asterix-impl/src/context.rs:320-367 | an enum's item: characterised by `EnumHelpers` (declaration, helper order and arity), `HelperBuilds` and `HelperNameClash` |
| Render.RenderStruct | asterix-impl/src/context.rs:369-410 | a struct's item: characterised by `StructMethodNames`, `StructNamesDistinct`, `StructNewBuilds` and `StructRoundTrip` |
| Render.RenderWrapper | asterix-impl/src/context.rs:412-446 | a wrapper's item: characterised by `WrapperRoundTrip` (declaration, method names, conversion, round trips) |
| Render.RenderNewType | asterix-impl/src/context.rs:310-318 | dispatches an entry to the enum, struct or wrapper rendering; `RenderIgnoresInline`, `SameCasesRender` and `SameFieldsRender` state what it depends on |
| Render.SelectPartition | asterix-impl/src/context.rs:327-328 | the typed and raw selections split the cases: together they are a permutation of the cases, and each holds only its own kind |
| Render.SelectAppend | asterix-impl/src/context.rs:327-328 | the selection preserves order: it distributes over concatenation |
| Render.HelpersPermutation | asterix-impl/src/context.rs:352-363 | the helpers of the typed cases followed by those of the raw cases are a permutation of one helper per case |
| Render.EnumHelpers | asterix-impl/src/context.rs:320-367 | the enum declares its cases in order with their payloads; its methods are one helper per case, the typed helpers first, each taking one argument, then the raw helpers, taking none; case `i`'s helper sits after the helpers of the earlier cases of its own kind, so each group keeps declaration order |
| Render.HelperBuilds | asterix-impl/src/context.rs:353-363 | a helper is named by the lower-cased case name, and calling it builds that case, holding the argument exactly when the case is typed |
| Render.HelperNameClash | asterix-impl/src/context.rs:335-344 | two helpers of one enum share a name exactly when the case names agree up to ASCII case, which the code does not check |
| Render.StructMethodNames | asterix-impl/src/context.rs:373-406 | a struct gets `new`, taking the fields in declaration order, then one getter named by each field verbatim, then one mutable getter named by the field plus `_mut` |
| Render.StructNamesDistinct | asterix-impl/src/context.rs:373-406 | the struct's method names are pairwise distinct exactly when the field names are distinct, none is `new`, and none is another field's name plus `_mut` |
| Render.AccessorNamesNecessary | asterix-impl/src/context.rs:375-381 | distinct method names force distinct field names, none `new`, none another's `_mut` form |
| Render.AccessorNamesSufficient | asterix-impl/src/context.rs:375-381 | those conditions on the field names make all method names distinct |
| Render.StructNewBuilds | asterix-impl/src/context.rs:390-394 | `new` builds a record holding one member per field name |
| Render.StructRoundTrip | asterix-impl/src/context.rs:390-406 | with distinct field names, building with `new` and reading any field through its getter or mutable getter returns that field's argument |
| Render.WrapperRoundTrip | asterix-impl/src/context.rs:412-446 | the wrapper is the tuple struct `Name(T)` with the methods `new`, `inner`, `inner_mut`, `into_inner` and one `From<T>` conversion; `into_inner` after `new` returns the wrapped value, as do `inner` and `inner_mut` after the conversion |
| Generate.SameCasesRender | asterix-impl/src/context.rs:98-111 | an enum's rendering depends only on its cases' names and payload types |
| Generate.SameFieldsRender | asterix-impl/src/context.rs:172-181 | a struct's rendering depends only on its fields' names and types |
| Generate.RenderIgnoresInline | asterix-impl/src/context.rs:98-111 | a node and its cleared form render identically, so table entries that still hold inline definitions render as their flattened forms |
| Generate.CreateAst | asterix-impl/src/context.rs:19-34 | the generated module: characterised by `CreateAstDeclares` and `AstItemIsRoot` |
| Generate.CreateVisitor | asterix-impl/src/visitor.rs:35-47 | the `Visitor` trait holding the emitted functions: `FuncImplCoversEnums` and `EmittedAreEnumVisits` state what they are |
| Generate.CreateAstDeclares | asterix-impl/src/context.rs:19-34 | the module declares the table's types in table order, then the root enum named `Ast`, and carries the visitor it is given |
| Generate.AstItemIsRoot | asterix-impl/src/context.rs:19-34 | the `Ast` item renders exactly as the uncleared root enum of the parsed cases would |
| Generate.ReferencesDeclared | asterix-impl/src/context.rs:134-138 | every top-level case that defined a type carries, in `Ast`, a payload naming a type the module declares |
| Generate.Expand | asterix-impl/src/lib.rs:13-21 | the expansion succeeds exactly when the grammar parses |
| Generate.ExpandFacts | asterix-impl/src/lib.rs:13-21 | an expansion has the table's items then `Ast`, `Ast` renders as the parsed root, inline-defined cases refer to declared types, and the visitor has a function for every enum of the table |
| Visit.NameSet | asterix-impl/src/visitor.rs:23-27 | the set holds the name of every table entry, and nothing else |
| Visit.NewVisitor | asterix-impl/src/visitor.rs:22-33 | the visitor keeps its context, and its name set is exactly the names of the table entries |
| Visit.NameSetSize | asterix-impl/src/visitor.rs:23-27 | the name set is never larger than the table, and it is exactly as large when no two entries share a name |
| Visit.SingleFunc | asterix-impl/src/visitor.rs:63-102 | an entry yields a function exactly when it is an enum; the function is `visit_` plus the lower-cased name, its parameter is the lower-cased name, and the parameter's type is the enum |
| Visit.FuncImpl | asterix-impl/src/visitor.rs:49-61 | the functions of the visitor: characterised by `EmittedAreEnumVisits` and `FuncImplCoversEnums` |
| Visit.EmittedAreEnumVisits | asterix-impl/src/visitor.rs:49-61 | the functions emitted are the visits of the table's enums, one each, in table order |
| Visit.FuncImplCoversEnums | asterix-impl/src/visitor.rs:49-61 | the visitor has a function for an enum exactly when the table holds that enum, and no other function |
| Visit.VisitNameClash | asterix-impl/src/visitor.rs:69-75 | two enums get visit functions of the same name exactly when their names agree up to ASCII case |
| Visit.VariantsToRecurse | asterix-impl/src/visitor.rs:78-89 | the cases the never-evaluated filter would select: characterised by `RecurseMembers`, `RecurseAppend`, `NeverRecursed` and `RecursesIntoDefinitions` |
| Visit.RecurseMembers | asterix-impl/src/visitor.rs:78-89 | a case is kept exactly when its payload type prints as a name of the table |
| Visit.RecurseAppend | asterix-impl/src/visitor.rs:78-89 | the filter keeps order: it distributes over concatenation |
| Visit.NeverRecursed | asterix-impl/src/visitor.rs:79-88 | when the table's names are identifiers, a case without payload (printing as the empty string) and a case whose payload is not a bare identifier are never kept |
| Visit.RecursesIntoDefinitions | asterix-impl/src/visitor.rs:78-89 | for a parsed grammar, every case of a table enum that defines a type inline is kept, and on well-lexed input every kept case has a payload |
| Scenarios.PayloadVariant | asterix-impl/src/context.rs:454 | `Call(Lmao)` is the case `Call` with payload `Lmao` |
| Scenarios.ShorthandVariant | asterix-impl/src/context.rs:457 | `\|Call\|` is the case `Call` with payload `Call` |
| Scenarios.WrapperVariant | asterix-impl/src/context.rs:460 | `Call \|isize\|` defines the wrapper `Call` around `isize` |
| Scenarios.StructVariant | asterix-impl/src/context.rs:463 | `Call: struct Call {}` defines the empty struct `Call` |
| Scenarios.FieldForms | asterix-impl/src/context.rs:469-474 | `a: usize` is a plain field; `a: struct A {}` defines `A` inline |
| Scenarios.LitCasesParse | asterix-impl/src/context.rs:486-491 | two cases of the `Lit` enum, `Int(isize), Ident \|String\|`, parse to a payload case and a case defining a wrapper |
| Scenarios.NestedGrammar | asterix-impl/src/context.rs:485-491 | the grammar `Lit: enum Lit { Int(isize), Ident \|String\| }` gives the table `Lit`, `Ident` and one cleared top-level case |
| Scenarios.NestedVisitor | asterix-impl/src/visitor.rs:78-89 | visiting that `Lit` would recurse into `Ident` and not into `Int(isize)` |
| Scenarios.MissingComma | asterix-impl/src/context.rs:266 | two cases without a separator fail at the second, expecting a comma |
| Scenarios.NotADefinition | asterix-impl/src/context.rs:233-250 | `A : B` fails at `B`, expecting `struct` or `enum` |
| Scenarios.StrayReportedLast | asterix-impl/src/context.rs:139-143 | in `A(x y), B` the stray `y` does not stop the list from parsing; the grammar then fails at `y` |
| Scenarios.StrayYieldsToError | asterix-impl/src/context.rs:67-89 | in `A(x y) B` the missing comma before `B` is reported, not the stray `y` |
| Scenarios.KeywordsAreNotNames | asterix-impl/src/context.rs:128-129 | `fn` and `_` are shaped like identifiers, yet well-lexed input never holds them as names, as syn's `Ident` refuses them; an ordinary name with a payload is well lexed |

## Left out

- Lexing, spans and `syn::Type` grammar: types arrive as single tokens, so a tuple or generic type is one `Ty` token; `Other` types print as their opaque text.
- Keywords as names: only `struct` and `enum` are tokens of their own. syn's `Ident` also refuses every other Rust keyword and the lone `_` as a name, but the parser here accepts any `Ident` token. Well-lexed input (`WellLexed`, through `IsKeyword`) excludes them, so the facts about names that assume it are the ones the crate delivers. The path keywords `Self`, `self`, `super` and `crate` are valid one-token payload types (`Name(Self)`), but well-lexed input cannot hold them (as an `Ident` they are keywords, and a `Ty` token never holds a bare identifier), so those facts do not cover such payloads.
- Unicode lower-casing: `to_lowercase` is modelled on ASCII only.
- The `#[derive(Debug, Clone)]` attributes, `pub` visibility and the `quote!` token plumbing of each item: only the structure the rules decide is modelled.
- The `proc_macro` entry point `ast` in `asterix-impl/src/lib.rs`: `Generate.Expand` models what it composes. As written it calls `create_visitor()` with no argument although the method takes a `&Context`, so the crate does not compile. The model's `CreateVisitor` takes only the visitor, which is what the body of `create_visitor` uses.
- Visit functions: their empty body and the `v: &mut impl Visitor` parameter are fixed text and are not modelled beyond `VisitFn`.
- Name checks the code does not make: duplicate case names in one enum, duplicate table names, helper names that clash after lower-casing, helper names that lower-case to a Rust keyword, and field names that collide with `new` or `_mut` accessors. They reach the Rust compiler as errors. The model characterises them (`NameSetSize`, `HelperNameClash`, `VisitNameClash`, `StructNamesDistinct`) rather than rejecting them.
- The declarative-macro drafts in `src/` and `asterix/src/`: they are superseded by `asterix-impl`.
- The tests print their results and assert nothing; `Scenarios` states what the model gives for some of their inputs (the `Lit` enum cut to two cases).

=== FILE: ast.dfy ===
/**
 * The grammar compiler's data model: the enum variants, struct fields and
 * new-type definitions a grammar describes, before and after hoisting.
 */
module Ast {
  import opened Wrappers
  import opened Tokens

  /**
   * An enum case. `ty` is its payload type (`None` for a payload-less tag);
   * `newType` holds a type defined inline at this case, if any.
   */
  datatype Variant = Variant(newType: Option<NewType>, name: string, ty: Option<TypeRef>)

  /** A struct field; `newType` holds a type defined inline at the field. */
  datatype Field = Field(newType: Option<NewType>, ident: string, ty: TypeRef)

  datatype NewType =
    | Enum(e: EnumType)
    | Struct(s: StructType)
    | Wrapper(w: WrapperStruct)

  datatype EnumType = EnumType(name: string, variants: seq<Variant>)

  datatype StructType = StructType(name: string, fields: seq<Field>)

  /** A one-field tuple struct around `ty`. */
  datatype WrapperStruct = WrapperStruct(name: string, ty: TypeRef)

  function Name(n: NewType): (r: string)
  {
    match n
    case Enum(e) => e.name
    case Struct(s) => s.name
    case Wrapper(w) => w.name
  }

  /** The reference that replaces an inline definition: the type named after it. */
  function RefTo(n: NewType): (r: TypeRef)
  {
    Path(Name(n))
  }

  /**
   * The shape the parser gives its output, at every depth: a case or field
   * that carries an inline definition has as its type the reference to that
   * definition's name, and a field never carries an inline wrapper.
   */
  predicate WellFormedVariant(v: Variant)
  {
    v.newType.Some? ==> v.ty == Some(RefTo(v.newType.value)) && WellFormedNewType(v.newType.value)
  }

  predicate WellFormedField(f: Field)
  {
    f.newType.Some? ==>
      && f.ty == RefTo(f.newType.value)
      && !f.newType.value.Wrapper?
      && WellFormedNewType(f.newType.value)
  }

  predicate WellFormedNewType(n: NewType)
  {
    match n
    case Enum(e) => forall v | v in e.variants :: WellFormedVariant(v)
    case Struct(s) => forall f | f in s.fields :: WellFormedField(f)
    case Wrapper(_) => true
  }

  /** Every type name, case name and field name, at every depth, is an identifier. */
  predicate WellNamedVariant(v: Variant)
  {
    IsIdent(v.name) && (v.newType.Some? ==> WellNamedNewType(v.newType.value))
  }

  predicate WellNamedField(f: Field)
  {
    IsIdent(f.ident) && (f.newType.Some? ==> WellNamedNewType(f.newType.value))
  }

  predicate WellNamedNewType(n: NewType)
  {
    IsIdent(Name(n)) &&
    match n
    case Enum(e) => forall v | v in e.variants :: WellNamedVariant(v)
    case Struct(s) => forall f | f in s.fields :: WellNamedField(f)
    case Wrapper(_) => true
  }

  /** The definitions held inline by the cases or fields of `n`, in declaration order. */
  function InlineChildren(n: NewType): (r: seq<NewType>)
  {
    match n
    case Enum(e) => VariantChildren(e.variants)
    case Struct(s) => FieldChildren(s.fields)
    case Wrapper(_) => []
  }

  function VariantChildren(vs: seq<Variant>): (cs: seq<NewType>)
    ensures forall c | c in cs :: exists v | v in vs :: v.newType == Some(c)
    ensures forall v | v in vs && v.newType.Some? :: v.newType.value in cs
  {
    if |vs| == 0 then []
    else (if vs[0].newType.Some? then [vs[0].newType.value] else []) + VariantChildren(vs[1..])
  }

  function FieldChildren(fs: seq<Field>): (cs: seq<NewType>)
    ensures forall c | c in cs :: exists f | f in fs :: f.newType == Some(c)
    ensures forall f | f in fs && f.newType.Some? :: f.newType.value in cs
  {
    if |fs| == 0 then []
    else (if fs[0].newType.Some? then [fs[0].newType.value] else []) + FieldChildren(fs[1..])
  }

  /** No case or field of `n` carries an inline definition. */
  predicate Flat(n: NewType)
  {
    InlineChildren(n) == []
  }
}

=== FILE: flatten.dfy ===
/**
 * Hoisting of inline type definitions into one type table.
 *
 * `flatten` records a copy of its argument BEFORE clearing anything, then
 * walks the cases (or fields) in declaration order, flattening each inline
 * definition and appending its table, and finally clears every inline slot
 * of the argument. So the table is a pre-order listing of the definitions,
 * and its entries still carry their own inline definitions; only the
 * argument itself comes back cleared.
 */
module Flattener {
  import opened Wrappers
  import opened Ast

  /** The table `flatten` returns for `n`. */
  function Table(n: NewType): (t: seq<NewType>)
    decreases n, 1
  {
    [n] +
    match n
    case Enum(e) => VariantTables(e.variants)
    case Struct(s) => FieldTables(s.fields)
    case Wrapper(_) => []
  }

  function VariantTables(vs: seq<Variant>): (r: seq<NewType>)
    decreases vs, 0
  {
    if |vs| == 0 then []
    else (if vs[0].newType.Some? then Table(vs[0].newType.value) else []) + VariantTables(vs[1..])
  }

  function FieldTables(fs: seq<Field>): (r: seq<NewType>)
    decreases fs, 0
  {
    if |fs| == 0 then []
    else (if fs[0].newType.Some? then Table(fs[0].newType.value) else []) + FieldTables(fs[1..])
  }

  /** The tables of `cs`, one after another. */
  function Tables(cs: seq<NewType>): (r: seq<NewType>)
  {
    if |cs| == 0 then [] else Table(cs[0]) + Tables(cs[1..])
  }

  function ClearVariant(v: Variant): (r: Variant)
  {
    v.(newType := None)
  }

  function ClearField(f: Field): (r: Field)
  {
    f.(newType := None)
  }

  function ClearVariants(vs: seq<Variant>): (cs: seq<Variant>)
    ensures |cs| == |vs| && forall i | 0 <= i < |vs| :: cs[i] == ClearVariant(vs[i])
  {
    seq(|vs|, i requires 0 <= i < |vs| => ClearVariant(vs[i]))
  }

  function ClearFields(fs: seq<Field>): (cs: seq<Field>)
    ensures |cs| == |fs| && forall i | 0 <= i < |fs| :: cs[i] == ClearField(fs[i])
  {
    seq(|fs|, i requires 0 <= i < |fs| => ClearField(fs[i]))
  }

  /** `s` is `n` with every inline slot of its cases or fields cleared and nothing else changed. */
  predicate ClearedOf(s: NewType, n: NewType)
  {
    match n
    case Enum(e) =>
      && s.Enum? && s.e.name == e.name && |s.e.variants| == |e.variants|
      && forall i | 0 <= i < |e.variants| ::
           && s.e.variants[i].newType.None?
           && s.e.variants[i].name == e.variants[i].name
           && s.e.variants[i].ty == e.variants[i].ty
    case Struct(st) =>
      && s.Struct? && s.s.name == st.name && |s.s.fields| == |st.fields|
      && forall i | 0 <= i < |st.fields| ::
           && s.s.fields[i].newType.None?
           && s.s.fields[i].ident == st.fields[i].ident
           && s.s.fields[i].ty == st.fields[i].ty
    case Wrapper(_) => s == n
  }

  function Clear(n: NewType): (r: NewType)
  {
    match n
    case Enum(e) => Enum(EnumType(e.name, ClearVariants(e.variants)))
    case Struct(s) => Struct(StructType(s.name, ClearFields(s.fields)))
    case Wrapper(_) => n
  }

  /** What `flatten` leaves in its argument, and the table it returns. */
  datatype Flattened = Flattened(node: NewType, table: seq<NewType>)

  function Flatten(n: NewType): (r: Flattened)
    ensures ClearedOf(r.node, n) && Flat(r.node)
    ensures |r.table| > 0 && r.table[0] == n
    ensures Flat(n) ==> r == Flattened(n, [n])
  {
    FlatClear(n);
    Flattened(Clear(n), Table(n))
  }

  lemma {:induction false} VariantChildrenNone(vs: seq<Variant>)
    ensures VariantChildren(vs) == [] <==> forall i | 0 <= i < |vs| :: vs[i].newType.None?
    ensures (forall i | 0 <= i < |vs| :: vs[i].newType.None?) ==> VariantTables(vs) == []
  {
    if |vs| > 0 {
      VariantChildrenNone(vs[1..]);
      assert forall i | 1 <= i < |vs| :: vs[i] == vs[1..][i - 1];
    }
  }

  lemma {:induction false} FieldChildrenNone(fs: seq<Field>)
    ensures FieldChildren(fs) == [] <==> forall i | 0 <= i < |fs| :: fs[i].newType.None?
    ensures (forall i | 0 <= i < |fs| :: fs[i].newType.None?) ==> FieldTables(fs) == []
  {
    if |fs| > 0 {
      FieldChildrenNone(fs[1..]);
      assert forall i | 1 <= i < |fs| :: fs[i] == fs[1..][i - 1];
    }
  }

  /** Clearing produces a flat node, changes nothing in a flat one, and is all the change. */
  lemma FlatClear(n: NewType)
    ensures ClearedOf(Clear(n), n) && Flat(Clear(n))
    ensures Flat(n) ==> Clear(n) == n && Table(n) == [n]
  {
    match n
    case Enum(e) => ClearVariantsFlat(e.variants);
    case Struct(s) => ClearFieldsFlat(s.fields);
    case Wrapper(_) =>
  }

  lemma ClearVariantsFlat(vs: seq<Variant>)
    ensures VariantChildren(ClearVariants(vs)) == []
    ensures VariantChildren(vs) == [] ==> ClearVariants(vs) == vs && VariantTables(vs) == []
  {
    var cs := ClearVariants(vs);
    VariantChildrenNone(cs);
    VariantChildrenNone(vs);
    if VariantChildren(vs) == [] {
      forall i | 0 <= i < |vs|
        ensures cs[i] == vs[i]
      {
        assert vs[i].newType.None?;
      }
    }
  }

  lemma ClearFieldsFlat(fs: seq<Field>)
    ensures FieldChildren(ClearFields(fs)) == []
    ensures FieldChildren(fs) == [] ==> ClearFields(fs) == fs && FieldTables(fs) == []
  {
    var cs := ClearFields(fs);
    FieldChildrenNone(cs);
    FieldChildrenNone(fs);
    if FieldChildren(fs) == [] {
      forall i | 0 <= i < |fs|
        ensures cs[i] == fs[i]
      {
        assert fs[i].newType.None?;
      }
    }
  }

  lemma {:induction false} TablesAppend(a: seq<NewType>, b: seq<NewType>)
    ensures Tables(a + b) == Tables(a) + Tables(b)
  {
    if |a| > 0 {
      TablesAppend(a[1..], b);
      assert (a + b)[0] == a[0];
      assert (a + b)[1..] == a[1..] + b;
      assert Tables(a + b) == Table(a[0]) + (Tables(a[1..]) + Tables(b));
    } else {
      assert a + b == b;
    }
  }

  lemma {:induction false} VariantTablesChildren(vs: seq<Variant>)
    ensures VariantTables(vs) == Tables(VariantChildren(vs))
  {
    if |vs| > 0 {
      VariantTablesChildren(vs[1..]);
      var head := if vs[0].newType.Some? then [vs[0].newType.value] else [];
      TablesAppend(head, VariantChildren(vs[1..]));
    }
  }

  lemma {:induction false} FieldTablesChildren(fs: seq<Field>)
    ensures FieldTables(fs) == Tables(FieldChildren(fs))
  {
    if |fs| > 0 {
      FieldTablesChildren(fs[1..]);
      var head := if fs[0].newType.Some? then [fs[0].newType.value] else [];
      TablesAppend(head, FieldChildren(fs[1..]));
    }
  }

  /**
   * Pre-order, stated per node: a node's table is the node followed by the
   * tables of its inline definitions, in the order they are declared.
   */
  lemma TableChildren(n: NewType)
    ensures Table(n) == [n] + Tables(InlineChildren(n))
  {
    match n
    case Enum(e) => VariantTablesChildren(e.variants);
    case Struct(s) => FieldTablesChildren(s.fields);
    case Wrapper(_) =>
  }

  /**
   * An independent computation of the table: an explicit work list, popped
   * at the front, with each popped node's inline definitions pushed in front
   * of the rest. It lists exactly what `flatten` returns, so that table is
   * the depth-first pre-order of the definitions.
   */
  method FlattenByWorklist(n: NewType) returns (table: seq<NewType>)
    ensures table == Flatten(n).table
  {
    table := [];
    var work := [n];
    assert Tables(work) == Table(n) + [];
    while |work| > 0
      invariant table + Tables(work) == Table(n)
      decreases |Tables(work)|
    {
      var x := work[0];
      var next := InlineChildren(x) + work[1..];
      WorklistStep(work);
      assert table + Tables(work) == (table + [x]) + Tables(next);
      table := table + [x];
      work := next;
    }
  }

  /** Popping a node and pushing its inline definitions keeps the listing the work list stands for. */
  lemma WorklistStep(work: seq<NewType>)
    requires |work| > 0
    ensures Tables(work) == [work[0]] + Tables(InlineChildren(work[0]) + work[1..])
  {
    var x, cs, rest := work[0], InlineChildren(work[0]), work[1..];
    TablesCons(work);
    TableChildren(x);
    TablesAppend(cs, rest);
    AppendAssoc([x], Tables(cs), Tables(rest));
  }

  lemma TablesCons(work: seq<NewType>)
    requires |work| > 0
    ensures Tables(work) == Table(work[0]) + Tables(work[1..])
  {
  }

  lemma AppendAssoc<T>(a: seq<T>, b: seq<T>, c: seq<T>)
    ensures (a + b) + c == a + (b + c)
  {
  }

  lemma {:induction false} VariantChildrenListed(vs: seq<Variant>)
    ensures forall c | c in VariantChildren(vs) :: c in VariantTables(vs)
  {
    if |vs| > 0 {
      VariantChildrenListed(vs[1..]);
    }
  }

  lemma {:induction false} FieldChildrenListed(fs: seq<Field>)
    ensures forall c | c in FieldChildren(fs) :: c in FieldTables(fs)
  {
    if |fs| > 0 {
      FieldChildrenListed(fs[1..]);
    }
  }

  /**
   * Hoisting is complete: every definition held inline by an entry of the
   * table is itself an entry of the table.
   */
  lemma {:induction false} TableClosed(n: NewType)
    ensures forall x, c | x in Table(n) && c in InlineChildren(x) :: c in Table(n)
    decreases n, 1
  {
    match n
    case Enum(e) =>
      VariantChildrenListed(e.variants);
      VariantTablesClosed(e.variants);
    case Struct(s) =>
      FieldChildrenListed(s.fields);
      FieldTablesClosed(s.fields);
    case Wrapper(_) =>
  }

  lemma {:induction false} VariantTablesClosed(vs: seq<Variant>)
    ensures forall x, c | x in VariantTables(vs) && c in InlineChildren(x) :: c in VariantTables(vs)
    decreases vs, 0
  {
    if |vs| > 0 {
      VariantTablesClosed(vs[1..]);
      if vs[0].newType.Some? {
        TableClosed(vs[0].newType.value);
      }
    }
  }

  lemma {:induction false} FieldTablesClosed(fs: seq<Field>)
    ensures forall x, c | x in FieldTables(fs) && c in InlineChildren(x) :: c in FieldTables(fs)
    decreases fs, 0
  {
    if |fs| > 0 {
      FieldTablesClosed(fs[1..]);
      if fs[0].newType.Some? {
        TableClosed(fs[0].newType.value);
      }
    }
  }

  /** Every entry of the table keeps the parser's shape and naming when the root has them. */
  lemma {:induction false} TableInherits(n: NewType)
    ensures WellFormedNewType(n) ==> forall x | x in Table(n) :: WellFormedNewType(x)
    ensures WellNamedNewType(n) ==> forall x | x in Table(n) :: WellNamedNewType(x)
    decreases n, 1
  {
    match n
    case Enum(e) => VariantTablesInherit(e.variants);
    case Struct(s) => FieldTablesInherit(s.fields);
    case Wrapper(_) =>
  }

  lemma {:induction false} VariantTablesInherit(vs: seq<Variant>)
    ensures (forall v | v in vs :: WellFormedVariant(v)) ==>
              forall x | x in VariantTables(vs) :: WellFormedNewType(x)
    ensures (forall v | v in vs :: WellNamedVariant(v)) ==>
              forall x | x in VariantTables(vs) :: WellNamedNewType(x)
    decreases vs, 0
  {
    if |vs| > 0 {
      VariantTablesInherit(vs[1..]);
      assert forall v | v in vs[1..] :: v in vs;
      if vs[0].newType.Some? {
        assert vs[0] in vs;
        TableInherits(vs[0].newType.value);
      }
    }
  }

  lemma {:induction false} FieldTablesInherit(fs: seq<Field>)
    ensures (forall f | f in fs :: WellFormedField(f)) ==>
              forall x | x in FieldTables(fs) :: WellFormedNewType(x)
    ensures (forall f | f in fs :: WellNamedField(f)) ==>
              forall x | x in FieldTables(fs) :: WellNamedNewType(x)
    decreases fs, 0
  {
    if |fs| > 0 {
      FieldTablesInherit(fs[1..]);
      assert forall f | f in fs[1..] :: f in fs;
      if fs[0].newType.Some? {
        assert fs[0] in fs;
        TableInherits(fs[0].newType.value);
      }
    }
  }

  /**
   * The copy `flatten` records comes from before the clearing: when the node
   * defines anything inline, its table entry still holds those definitions
   * and differs from the node `flatten` leaves behind.
   */
  lemma TableKeepsInline(n: NewType)
    requires InlineChildren(n) != []
    ensures !Flat(Flatten(n).table[0])
    ensures Flatten(n).table[0] != Flatten(n).node
  {
  }
}

=== FILE: generate.dfy ===
/**
 * The generated module `ast`: one item per entry of the type table, in
 * table order, then the root `Ast` enum over the cleared top-level cases,
 * then the visitor trait when one is supplied.
 */
module Generate {
  import opened Wrappers
  import opened Tokens
  import opened Ast
  import opened Parser
  import opened Flattener
  import opened Grammar
  import opened Render
  import opened Visit

  /** `pub trait Visitor<'ast> { .. }` holding the visit functions. */
  datatype VisitorTrait = VisitorTrait(fns: seq<VisitFn>)

  datatype AstModule = AstModule(items: seq<Item>, visitor: Option<VisitorTrait>)

  function CreateVisitor(vis: Visitor): (r: VisitorTrait)
  {
    VisitorTrait(FuncImpl(vis))
  }

  function RenderAll(ts: seq<NewType>): (items: seq<Item>)
    ensures |items| == |ts| && forall i | 0 <= i < |ts| :: items[i] == RenderNewType(ts[i])
  {
    seq(|ts|, i requires 0 <= i < |ts| => RenderNewType(ts[i]))
  }

  function CreateAst(ctx: Context, visitor: Option<VisitorTrait>): (r: AstModule)
  {
    AstModule(RenderAll(ctx.newTypes) + [RenderEnum(EnumType(AstName, ctx.variants))], visitor)
  }

  /** The whole expansion of a grammar: parse, build the visitor, render. */
  function Expand(toks: seq<Token>): (r: Result<AstModule, ParseError>)
    ensures r.Ok? <==> ParseContext(toks).Ok?
  {
    var ctx :- ParseContext(toks);
    Ok(CreateAst(ctx, Some(CreateVisitor(NewVisitor(ctx)))))
  }

  function DeclName(d: Decl): (r: string)
  {
    match d
    case EnumDecl(n, _) => n
    case StructDecl(n, _) => n
    case TupleDecl(n, _) => n
  }

  // ------------------------------------------------ rendering ignores slots

  /** Two case lists that agree on names and payload types, position by position. */
  predicate SameCases(a: seq<Variant>, b: seq<Variant>)
  {
    |a| == |b| && forall i | 0 <= i < |a| :: a[i].name == b[i].name && a[i].ty == b[i].ty
  }

  lemma {:induction false} SameCasesHelpers(a: seq<Variant>, b: seq<Variant>, typed: bool)
    requires SameCases(a, b)
    ensures Helpers(Select(a, typed)) == Helpers(Select(b, typed))
  {
    if |a| > 0 {
      assert SameCases(a[1..], b[1..]) by {
        forall i | 0 <= i < |a| - 1
          ensures a[1..][i].name == b[1..][i].name && a[1..][i].ty == b[1..][i].ty
        {
          assert a[1..][i] == a[1 + i] && b[1..][i] == b[1 + i];
        }
      }
      SameCasesHelpers(a[1..], b[1..], typed);
      var ha := if a[0].ty.Some? == typed then [a[0]] else [];
      var hb := if b[0].ty.Some? == typed then [b[0]] else [];
      assert Helpers(ha) == Helpers(hb);
      HelpersAppend(ha, Select(a[1..], typed));
      HelpersAppend(hb, Select(b[1..], typed));
    }
  }

  /** Rendering an enum reads only the names and payload types of its cases. */
  lemma SameCasesRender(name: string, a: seq<Variant>, b: seq<Variant>)
    requires SameCases(a, b)
    ensures RenderEnum(EnumType(name, a)) == RenderEnum(EnumType(name, b))
  {
    SameCasesHelpers(a, b, true);
    SameCasesHelpers(a, b, false);
    var ca := seq(|a|, i requires 0 <= i < |a| => CaseOf(a[i]));
    var cb := seq(|b|, i requires 0 <= i < |b| => CaseOf(b[i]));
    forall i | 0 <= i < |a|
      ensures ca[i] == cb[i]
    {
      assert CaseOf(a[i]) == CaseOf(b[i]);
    }
    assert ca == cb;
    assert RenderEnum(EnumType(name, a)).decl == EnumDecl(name, ca);
    assert RenderEnum(EnumType(name, b)).decl == EnumDecl(name, cb);
  }

  /** Two field lists that agree on identifiers and types, position by position. */
  predicate SameFields(a: seq<Field>, b: seq<Field>)
  {
    |a| == |b| && forall i | 0 <= i < |a| :: a[i].ident == b[i].ident && a[i].ty == b[i].ty
  }

  /** Rendering a struct reads only the identifiers and types of its fields. */
  lemma SameFieldsRender(name: string, a: seq<Field>, b: seq<Field>)
    requires SameFields(a, b)
    ensures RenderStruct(StructType(name, a)) == RenderStruct(StructType(name, b))
  {
    var n := |a|;
    assert Members(a) == Members(b);
    assert Idents(a) == Idents(b);
    assert seq(n, i requires 0 <= i < n => Getter(a[i])) == seq(n, i requires 0 <= i < n => Getter(b[i]));
    assert seq(n, i requires 0 <= i < n => MutGetter(a[i])) == seq(n, i requires 0 <= i < n => MutGetter(b[i]));
  }

  /**
   * Clearing inline slots does not change what a definition renders to, so
   * the table entries still holding their inline definitions render as
   * their flattened forms would.
   */
  lemma RenderIgnoresInline(s: NewType, n: NewType)
    requires ClearedOf(s, n)
    ensures RenderNewType(s) == RenderNewType(n)
  {
    match n
    case Enum(e) =>
      assert SameCases(s.e.variants, e.variants);
      SameCasesRender(e.name, s.e.variants, e.variants);
    case Struct(st) =>
      assert SameFields(s.s.fields, st.fields);
      SameFieldsRender(st.name, s.s.fields, st.fields);
    case Wrapper(_) =>
  }

  // ------------------------------------------------------- the whole module

  /**
   * The module declares the table's types in table order and the root enum
   * last, under the name `Ast`, and carries the visitor it is given.
   */
  lemma CreateAstDeclares(ctx: Context, visitor: Option<VisitorTrait>)
    ensures var m := CreateAst(ctx, visitor);
      && |m.items| == |ctx.newTypes| + 1
      && (forall i | 0 <= i < |ctx.newTypes| :: DeclName(m.items[i].decl) == Name(ctx.newTypes[i]))
      && DeclName(m.items[|ctx.newTypes|].decl) == AstName
      && m.visitor == visitor
  {
    var m := CreateAst(ctx, visitor);
    forall i | 0 <= i < |ctx.newTypes|
      ensures DeclName(m.items[i].decl) == Name(ctx.newTypes[i])
    {
      assert m.items[i] == RenderNewType(ctx.newTypes[i]);
    }
  }

  /** The root enum of the module renders exactly as the parsed root would. */
  lemma AstItemIsRoot(vs: seq<Variant>, visitor: Option<VisitorTrait>)
    ensures var ctx := Hoist(vs);
      CreateAst(ctx, visitor).items[|ctx.newTypes|] == RenderNewType(AstRoot(vs))
  {
    var ctx := Hoist(vs);
    HoistIsFlattenOfRoot(vs);
    RenderIgnoresInline(AstRoot(ctx.variants), AstRoot(vs));
    assert CreateAst(ctx, visitor).items[|ctx.newTypes|] == RenderEnum(EnumType(AstName, ctx.variants));
  }

  /**
   * Every top-level case that defined a type inline now carries, in the
   * root enum, a payload naming a type the module declares.
   */
  lemma ReferencesDeclared(toks: seq<Token>, visitor: Option<VisitorTrait>)
    requires ParseContext(toks).Ok?
    ensures var m, ctx, vs := CreateAst(ParseContext(toks).value, visitor), ParseContext(toks).value, ParseVariants(toks).value.values;
      forall i | 0 <= i < |vs| && vs[i].newType.Some? ::
        exists j | 0 <= j < |ctx.newTypes| ::
          DeclName(m.items[j].decl) == Name(vs[i].newType.value)
          && m.items[|ctx.newTypes|].decl.cases[i].payload == Some(Path(DeclName(m.items[j].decl)))
  {
    var ctx, vs := ParseContext(toks).value, ParseVariants(toks).value.values;
    var m := CreateAst(ctx, visitor);
    var n := |ctx.newTypes|;
    CreateAstDeclares(ctx, visitor);
    ParseContextFacts(toks);
    var root := m.items[n];
    assert root == RenderEnum(EnumType(AstName, ctx.variants));
    forall i | 0 <= i < |vs| && vs[i].newType.Some?
      ensures exists j | 0 <= j < n ::
        DeclName(m.items[j].decl) == Name(vs[i].newType.value)
        && root.decl.cases[i].payload == Some(Path(DeclName(m.items[j].decl)))
    {
      var t := vs[i].newType.value;
      var j :| 0 <= j < n && ctx.newTypes[j] == t;
      assert root.decl.cases[i] == CaseOf(ctx.variants[i]);
      assert DeclName(m.items[j].decl) == Name(t);
    }
  }

  /**
   * Expanding a grammar: the root `Ast` enum renders exactly as the parsed
   * root would, every case that defined a type inline now holds a value of
   * a type the module declares, and the visitor has one function per enum
   * of the table.
   */
  lemma ExpandFacts(toks: seq<Token>)
    requires Expand(toks).Ok?
    ensures var m, ctx, vs := Expand(toks).value, ParseContext(toks).value, ParseVariants(toks).value.values;
      && |m.items| == |ctx.newTypes| + 1
      && m.items[|ctx.newTypes|] == RenderNewType(AstRoot(vs))
      && (forall i | 0 <= i < |vs| && vs[i].newType.Some? ::
            exists j | 0 <= j < |ctx.newTypes| ::
              DeclName(m.items[j].decl) == Name(vs[i].newType.value)
              && m.items[|ctx.newTypes|].decl.cases[i].payload == Some(Path(DeclName(m.items[j].decl))))
      && m.visitor.Some?
      && (forall e | Enum(e) in ctx.newTypes :: VisitOf(e) in m.visitor.value.fns)
  {
    var ctx, vs := ParseContext(toks).value, ParseVariants(toks).value.values;
    var visitor := Some(CreateVisitor(NewVisitor(ctx)));
    assert Expand(toks).value == CreateAst(ctx, visitor);
    assert ctx == Hoist(vs);
    CreateAstDeclares(ctx, visitor);
    AstItemIsRoot(vs, visitor);
    ReferencesDeclared(toks, visitor);
    FuncImplCoversEnums(NewVisitor(ctx));
  }
}

=== FILE: grammar.dfy ===
/**
 * A whole grammar: a comma-separated list of top-level cases, each usually
 * of the form `Name : NewType`. Parsing it hoists every definition into the
 * type table `newTypes` and keeps the cleared cases, which later become the
 * cases of the root `Ast` enum.
 */
module Grammar {
  import opened Wrappers
  import opened Tokens
  import opened Ast
  import opened Parser
  import opened Flattener

  const AstName: string := "Ast"

  datatype Context = Context(newTypes: seq<NewType>, variants: seq<Variant>)

  /** The root enum whose cases are the grammar's top-level cases. */
  function AstRoot(vs: seq<Variant>): (r: NewType)
  {
    Enum(EnumType(AstName, vs))
  }

  /**
   * The loop over the top-level cases: each inline definition is flattened
   * and its table appended, and each case's slot is cleared.
   */
  function Hoist(vs: seq<Variant>): (c: Context)
    ensures |c.variants| == |vs|
    ensures forall i | 0 <= i < |vs| :: c.variants[i] == ClearVariant(vs[i])
    ensures c.newTypes == VariantTables(vs)
  {
    if |vs| == 0 then Context([], [])
    else
      var rest := Hoist(vs[1..]);
      var head := if vs[0].newType.Some? then Flatten(vs[0].newType.value).table else [];
      Context(head + rest.newTypes, [ClearVariant(vs[0])] + rest.variants)
  }

  /**
   * The whole grammar. A stray token left inside a payload's parentheses is
   * reported, as an unexpected token, only when everything else has parsed;
   * any other error comes first.
   */
  function ParseContext(toks: seq<Token>): (r: Result<Context, ParseError>)
    ensures r.Ok? <==> ParseVariants(toks).Ok? && ParseVariants(toks).value.stray.None?
    ensures ParseVariants(toks).Err? ==> r == Err(ParseVariants(toks).error)
    ensures ParseVariants(toks).Ok? && ParseVariants(toks).value.stray.Some? ==>
              r == Err(ParseError(ParseVariants(toks).value.stray, {}))
    ensures r.Ok? ==> r.value == Hoist(ParseVariants(toks).value.values)
  {
    var vs :- ParseVariants(toks);
    if vs.stray.Some? then Err(ParseError(vs.stray, {})) else Ok(Hoist(vs.values))
  }

  /**
   * Parsing a grammar is flattening its root enum: the table is the root's
   * table without the root itself, and the cleared cases are the cases of
   * the cleared root.
   */
  lemma HoistIsFlattenOfRoot(vs: seq<Variant>)
    ensures Hoist(vs).newTypes == Flatten(AstRoot(vs)).table[1..]
    ensures AstRoot(Hoist(vs).variants) == Flatten(AstRoot(vs)).node
  {
    var cleared := Flatten(AstRoot(vs)).node.e.variants;
    assert cleared == Hoist(vs).variants;
  }

  /**
   * What a successful parse delivers: every top-level case is cleared and
   * refers by name to its definition, which is in the table; the table is
   * closed under inline definitions; every entry has the parser's shape,
   * and identifier names when the input was well lexed.
   */
  lemma ParseContextFacts(toks: seq<Token>)
    requires ParseContext(toks).Ok?
    ensures var ctx, vs := ParseContext(toks).value, ParseVariants(toks).value.values;
      && |ctx.variants| == |vs|
      && (forall i | 0 <= i < |vs| ::
            && ctx.variants[i].newType.None?
            && ctx.variants[i].name == vs[i].name
            && (vs[i].newType.Some? ==>
                  vs[i].newType.value in ctx.newTypes
                  && ctx.variants[i].ty == Some(RefTo(vs[i].newType.value))))
      && (forall x, c | x in ctx.newTypes && c in InlineChildren(x) :: c in ctx.newTypes)
      && (forall x | x in ctx.newTypes :: WellFormedNewType(x))
      && (WellLexed(toks) ==> forall x | x in ctx.newTypes :: WellNamedNewType(x))
  {
    var vs := ParseVariants(toks).value.values;
    VariantTablesClosed(vs);
    VariantTablesInherit(vs);
    VariantChildrenListed(vs);
    forall i | 0 <= i < |vs| && vs[i].newType.Some?
      ensures vs[i].newType.value in VariantTables(vs)
    {
      assert vs[i] in vs;
    }
  }
}

=== FILE: parser.dfy ===
/**
 * The recursive-descent parser of the grammar language: a top-level list of
 * enum cases, each of which may define a struct, an enum or a wrapper type
 * inline. Every function reads a prefix of its token sequence and returns
 * the value with the unread rest, or the first error with the token it met
 * and the alternatives it would have accepted there.
 */
module Parser {
  import opened Wrappers
  import opened Tokens
  import opened Ast

  datatype Expected =
    | ExpectPipe
    | ExpectColon
    | ExpectComma
    | ExpectIdent
    | ExpectStruct
    | ExpectEnum
    | ExpectBrace
    | ExpectType

  /** `found` is `None` at the end of the input. */
  datatype ParseError = ParseError(found: Option<Token>, expected: set<Expected>)

  /**
   * A parsed value, the unread rest, and the first stray token met inside a
   * parenthesised payload on the way (see `ParseParenType`).
   */
  datatype Parsed<+T> = Parsed(value: T, rest: seq<Token>, stray: Option<Token>)

  /** A list parsed to the end of its tokens, with its first stray token. */
  datatype Listed<+T> = Listed(values: seq<T>, stray: Option<Token>)

  /** The earlier of two strays: the one that was recorded first. */
  function FirstStray(a: Option<Token>, b: Option<Token>): (r: Option<Token>)
    ensures r.Some? <==> a.Some? || b.Some?
    ensures a.Some? ==> r == a
  {
    if a.Some? then a else b
  }

  type ParseResult<T> = Result<Parsed<T>, ParseError>

  function Peek(toks: seq<Token>): (r: Option<Token>)
  {
    if |toks| == 0 then None else Some(toks[0])
  }

  function Unexpected<T>(toks: seq<Token>, expected: set<Expected>): (r: ParseResult<T>)
    ensures r.Err? && r.error.found == Peek(toks) && r.error.expected == expected
  {
    Err(ParseError(Peek(toks), expected))
  }

  /** A successful parse consumed a non-empty prefix. */
  predicate Advances<T>(r: ParseResult<T>, toks: seq<Token>)
  {
    r.Ok? ==> StrictSuffix(r.value.rest, toks)
  }

  /** The pieces of a well-lexed sequence are well lexed. */
  lemma LexedParts(toks: seq<Token>)
    ensures WellLexed(toks) ==> forall k | 0 <= k <= |toks| :: WellLexed(toks[k..])
    ensures WellLexed(toks) ==> forall k | 0 <= k < |toks| && toks[k].Ident? :: IsIdent(toks[k].id)
    ensures WellLexed(toks) ==>
              forall k | 0 <= k < |toks| && (toks[k].Paren? || toks[k].Brace?) :: WellLexed(toks[k].inner)
  {
    if WellLexed(toks) {
      forall k | 0 <= k < |toks| && toks[k].Ident?
        ensures IsIdent(toks[k].id)
      {
        assert WellLexedToken(toks[k]);
      }
      forall k | 0 <= k < |toks| && (toks[k].Paren? || toks[k].Brace?)
        ensures WellLexed(toks[k].inner)
      {
        assert WellLexedToken(toks[k]);
      }
    }
  }

  /** A type expression: an identifier names a type; `Ty` is one already grouped. */
  function ParseType(toks: seq<Token>): (r: ParseResult<TypeRef>)
    ensures r.Ok? <==> |toks| > 0 && (toks[0].Ident? || toks[0].Ty?)
    ensures r.Ok? ==> r.value.rest == toks[1..]
    ensures r.Ok? && toks[0].Ident? ==> r.value.value == Path(toks[0].id)
    ensures r.Err? ==> r.error == ParseError(Peek(toks), {ExpectType})
  {
    if |toks| > 0 && toks[0].Ident? then Ok(Parsed(Path(toks[0].id), toks[1..], None))
    else if |toks| > 0 && toks[0].Ty? then Ok(Parsed(toks[0].ty, toks[1..], None))
    else Unexpected(toks, {ExpectType})
  }

  /**
   * The contents of `( … )`: a type expression. Tokens after it do not fail
   * the case: the group is dropped with its first unread token recorded as a
   * stray, and that stray fails the grammar only once all of it has parsed.
   */
  function ParseParenType(toks: seq<Token>): (r: ParseResult<TypeRef>)
    ensures r.Ok? <==> |toks| > 0 && (toks[0].Ident? || toks[0].Ty?)
    ensures r.Ok? ==> r.value.rest == [] && r.value.stray == Peek(toks[1..])
    ensures r.Ok? ==> (r.value.stray.None? <==> |toks| == 1)
    ensures r.Err? ==> r.error == ParseError(Peek(toks), {ExpectType})
  {
    var t :- ParseType(toks);
    Ok(Parsed(t.value, [], Peek(t.rest)))
  }

  /**
   * One enum case, in one of five forms: `|Name|`, `Name : NewType`,
   * `Name(Type)`, `Name |Type|` and a bare `Name`.
   */
  function ParseVariant(toks: seq<Token>): (r: ParseResult<Variant>)
    decreases Size(toks), 0
    ensures Advances(r, toks)
    ensures r.Ok? ==> WellFormedVariant(r.value.value)
    ensures r.Ok? && WellLexed(toks) ==> WellNamedVariant(r.value.value)
    ensures |toks| == 0 || !(toks[0].Pipe? || toks[0].Ident?) ==>
              r == Unexpected(toks, {ExpectPipe, ExpectIdent})
    // `|Name|`: a case named `Name` whose payload is the type `Name`
    ensures r.Ok? && toks[0].Pipe? ==>
              && |toks| > 2 && toks[1].Ident?
              && r.value.value == Variant(None, toks[1].id, Some(Path(toks[1].id)))
    // `Name` alone: a payload-less case that consumed only its name
    ensures r.Ok? && r.value.value.ty.None? ==>
              r.value.value.newType.None? && r.value.rest == toks[1..]
    // `Name |T|`: a wrapper named `Name` around `T` is defined inline
    ensures r.Ok? && |toks| > 1 && toks[0].Ident? && toks[1].Pipe? ==>
              && ParseType(toks[2..]).Ok?
              && r.value.value.name == toks[0].id
              && r.value.value.newType
                 == Some(Wrapper(WrapperStruct(toks[0].id, ParseType(toks[2..]).value.value)))
    // `Name(T …)`: the payload is the first type in the group; a token after it is the stray
    ensures r.Ok? && |toks| > 1 && toks[0].Ident? && toks[1].Paren? ==>
              && |toks[1].inner| > 0 && ParseType(toks[1].inner).Ok?
              && r.value.value.ty == Some(ParseType(toks[1].inner).value.value)
              && r.value.rest == toks[2..] && r.value.stray == Peek(toks[1].inner[1..])
  {
    LexedParts(toks);
    if |toks| == 0 then Unexpected(toks, {ExpectPipe, ExpectIdent})
    else match toks[0]
      case Pipe =>
        if |toks| < 2 || !toks[1].Ident? then Unexpected(toks[1..], {ExpectIdent})
        else if |toks| < 3 || !toks[2].Pipe? then Unexpected(toks[2..], {ExpectPipe})
        else Ok(Parsed(Variant(None, toks[1].id, Some(Path(toks[1].id))), toks[3..], None))
      case Ident(name) =>
        if |toks| > 1 && toks[1].Colon? then
          SizeDrop(toks, 2);
          var nt :- ParseNewType(toks[2..]);
          Ok(Parsed(Variant(Some(nt.value), name, Some(RefTo(nt.value))), nt.rest, nt.stray))
        else if |toks| > 1 && toks[1].Paren? then
          var t :- ParseParenType(toks[1].inner);
          Ok(Parsed(Variant(None, name, Some(t.value)), toks[2..], t.stray))
        else if |toks| > 1 && toks[1].Pipe? then
          var w :- ParseWrapper(toks);
          Ok(Parsed(Variant(Some(Wrapper(w.value)), name, Some(Path(name))), w.rest, None))
        else
          Ok(Parsed(Variant(None, name, None), toks[1..], None))
      case _ => Unexpected(toks, {ExpectPipe, ExpectIdent})
  }

  /**
   * A comma-separated list of cases running to the end of `toks`, with an
   * optional trailing comma.
   */
  function ParseVariants(toks: seq<Token>): (r: Result<Listed<Variant>, ParseError>)
    decreases Size(toks), 1
    ensures r.Ok? ==> forall v | v in r.value.values :: WellFormedVariant(v)
    ensures r.Ok? && WellLexed(toks) ==> forall v | v in r.value.values :: WellNamedVariant(v)
  {
    if |toks| == 0 then Ok(Listed([], None))
    else
      var p :- ParseVariant(toks);
      if |p.rest| == 0 then Ok(Listed([p.value], p.stray))
      else if !p.rest[0].Comma? then Err(ParseError(Some(p.rest[0]), {ExpectComma}))
      else
        SizeDrop(toks, |toks| - |p.rest| + 1);
        assert p.rest[1..] == toks[|toks| - |p.rest| + 1..];
        var more :- ParseVariants(p.rest[1..]);
        Ok(Listed([p.value] + more.values, FirstStray(p.stray, more.stray)))
  }

  /**
   * One struct field, `ident : T`. A type expression is tried first; only
   * when none parses here is an inline definition read instead.
   */
  function ParseField(toks: seq<Token>): (r: ParseResult<Field>)
    decreases Size(toks), 0
    ensures Advances(r, toks)
    ensures r.Ok? ==> WellFormedField(r.value.value)
    ensures r.Ok? && WellLexed(toks) ==> WellNamedField(r.value.value)
    ensures |toks| == 0 || !toks[0].Ident? ==> r == Unexpected(toks, {ExpectIdent})
    ensures |toks| > 1 && toks[0].Ident? && toks[1].Colon? && ParseType(toks[2..]).Ok? ==>
              r == Ok(Parsed(Field(None, toks[0].id, ParseType(toks[2..]).value.value),
                             ParseType(toks[2..]).value.rest, None))
    ensures r.Ok? && r.value.value.newType.Some? ==> |toks| > 1 && ParseType(toks[2..]).Err?
  {
    LexedParts(toks);
    if |toks| == 0 || !toks[0].Ident? then Unexpected(toks, {ExpectIdent})
    else if |toks| < 2 || !toks[1].Colon? then Unexpected(toks[1..], {ExpectColon})
    else match ParseType(toks[2..])
      case Ok(t) => Ok(Parsed(Field(None, toks[0].id, t.value), t.rest, None))
      case Err(_) =>
        SizeDrop(toks, 2);
        var nt :- ParseNewType(toks[2..]);
        Ok(Parsed(Field(Some(nt.value), toks[0].id, RefTo(nt.value)), nt.rest, nt.stray))
  }

  function ParseFields(toks: seq<Token>): (r: Result<Listed<Field>, ParseError>)
    decreases Size(toks), 1
    ensures r.Ok? ==> forall f | f in r.value.values :: WellFormedField(f)
    ensures r.Ok? && WellLexed(toks) ==> forall f | f in r.value.values :: WellNamedField(f)
  {
    if |toks| == 0 then Ok(Listed([], None))
    else
      var p :- ParseField(toks);
      if |p.rest| == 0 then Ok(Listed([p.value], p.stray))
      else if !p.rest[0].Comma? then Err(ParseError(Some(p.rest[0]), {ExpectComma}))
      else
        SizeDrop(toks, |toks| - |p.rest| + 1);
        assert p.rest[1..] == toks[|toks| - |p.rest| + 1..];
        var more :- ParseFields(p.rest[1..]);
        Ok(Listed([p.value] + more.values, FirstStray(p.stray, more.stray)))
  }

  /**
   * A type definition, chosen by its first token (and, for a wrapper, its
   * second). The error lists only the alternatives whose test failed: after
   * an identifier not followed by `|` it expects `struct` or `enum` alone.
   */
  function ParseNewType(toks: seq<Token>): (r: ParseResult<NewType>)
    decreases Size(toks), 1
    ensures Advances(r, toks)
    ensures r.Ok? ==> WellFormedNewType(r.value.value)
    ensures r.Ok? && WellLexed(toks) ==> WellNamedNewType(r.value.value)
    ensures r.Ok? ==> (toks[0].KwStruct? <==> r.value.value.Struct?)
    ensures r.Ok? ==> (toks[0].KwEnum? <==> r.value.value.Enum?)
    ensures r.Ok? ==> (toks[0].Ident? <==> r.value.value.Wrapper?)
    ensures (|toks| == 0 || !(toks[0].KwStruct? || toks[0].KwEnum? || toks[0].Ident?)) ==>
              r == Unexpected(toks, {ExpectStruct, ExpectEnum, ExpectIdent})
    ensures |toks| > 0 && toks[0].Ident? && !(|toks| > 1 && toks[1].Pipe?) ==>
              r == Unexpected(toks, {ExpectStruct, ExpectEnum})
  {
    if |toks| > 0 && toks[0].KwStruct? then
      var s :- ParseStruct(toks);
      Ok(Parsed(Struct(s.value), s.rest, s.stray))
    else if |toks| > 0 && toks[0].KwEnum? then
      var e :- ParseEnum(toks);
      Ok(Parsed(Enum(e.value), e.rest, e.stray))
    else if |toks| > 0 && toks[0].Ident? then
      if |toks| > 1 && toks[1].Pipe? then
        var w :- ParseWrapper(toks);
        Ok(Parsed(Wrapper(w.value), w.rest, None))
      else
        Unexpected(toks, {ExpectStruct, ExpectEnum})
    else
      Unexpected(toks, {ExpectStruct, ExpectEnum, ExpectIdent})
  }

  /** `enum Name { Variant, … }` */
  function ParseEnum(toks: seq<Token>): (r: ParseResult<EnumType>)
    decreases Size(toks), 0
    ensures Advances(r, toks)
    ensures r.Ok? ==> WellFormedNewType(Enum(r.value.value))
    ensures r.Ok? && WellLexed(toks) ==> WellNamedNewType(Enum(r.value.value))
    ensures r.Ok? ==>
              && |toks| >= 3 && toks[0].KwEnum? && toks[1].Ident? && toks[2].Brace?
              && r.value.value.name == toks[1].id && r.value.rest == toks[3..]
  {
    LexedParts(toks);
    if |toks| == 0 || !toks[0].KwEnum? then Unexpected(toks, {ExpectEnum})
    else if |toks| < 2 || !toks[1].Ident? then Unexpected(toks[1..], {ExpectIdent})
    else if |toks| < 3 || !toks[2].Brace? then Unexpected(toks[2..], {ExpectBrace})
    else
      SizeInner(toks, 2);
      var vs :- ParseVariants(toks[2].inner);
      Ok(Parsed(EnumType(toks[1].id, vs.values), toks[3..], vs.stray))
  }

  /** `struct Name { field: T, … }` */
  function ParseStruct(toks: seq<Token>): (r: ParseResult<StructType>)
    decreases Size(toks), 0
    ensures Advances(r, toks)
    ensures r.Ok? ==> WellFormedNewType(Struct(r.value.value))
    ensures r.Ok? && WellLexed(toks) ==> WellNamedNewType(Struct(r.value.value))
    ensures r.Ok? ==>
              && |toks| >= 3 && toks[0].KwStruct? && toks[1].Ident? && toks[2].Brace?
              && r.value.value.name == toks[1].id && r.value.rest == toks[3..]
  {
    LexedParts(toks);
    if |toks| == 0 || !toks[0].KwStruct? then Unexpected(toks, {ExpectStruct})
    else if |toks| < 2 || !toks[1].Ident? then Unexpected(toks[1..], {ExpectIdent})
    else if |toks| < 3 || !toks[2].Brace? then Unexpected(toks[2..], {ExpectBrace})
    else
      SizeInner(toks, 2);
      var fs :- ParseFields(toks[2].inner);
      Ok(Parsed(StructType(toks[1].id, fs.values), toks[3..], fs.stray))
  }

  /** `Name |T|`: a wrapper named `Name` around the type `T`. */
  function ParseWrapper(toks: seq<Token>): (r: ParseResult<WrapperStruct>)
    ensures Advances(r, toks)
    ensures r.Ok? && WellLexed(toks) ==> IsIdent(r.value.value.name)
    ensures r.Ok? <==>
              && |toks| > 1 && toks[0].Ident? && toks[1].Pipe?
              && ParseType(toks[2..]).Ok?
              && |toks| > 3 && toks[3].Pipe?
    ensures r.Ok? ==>
              && r.value.value == WrapperStruct(toks[0].id, ParseType(toks[2..]).value.value)
              && r.value.rest == toks[4..] && r.value.stray.None?
  {
    LexedParts(toks);
    if |toks| == 0 || !toks[0].Ident? then Unexpected(toks, {ExpectIdent})
    else if |toks| < 2 || !toks[1].Pipe? then Unexpected(toks[1..], {ExpectPipe})
    else
      var t :- ParseType(toks[2..]);
      if |t.rest| == 0 || !t.rest[0].Pipe? then Unexpected(t.rest, {ExpectPipe})
      else Ok(Parsed(WrapperStruct(toks[0].id, t.value), t.rest[1..], None))
  }
}

=== FILE: printer.dfy ===
/**
 * The inverse of the parser: prints a definition back to grammar tokens.
 * Every definition of the shape the parser produces (`WellFormed…`) parses
 * back to itself, which pins down what each grammar form means.
 */
module Printer {
  import opened Wrappers
  import opened Tokens
  import opened Ast
  import opened Parser

  function TypeToken(t: TypeRef): (r: Token)
  {
    match t
    case Path(n) => Ident(n)
    case Other(_) => Ty(t)
  }

  function PrintNewType(n: NewType): (r: seq<Token>)
  {
    match n
    case Enum(e) => [KwEnum, Ident(e.name), Brace(PrintVariants(e.variants, true))]
    case Struct(s) => [KwStruct, Ident(s.name), Brace(PrintFields(s.fields, true))]
    case Wrapper(w) => [Ident(w.name), Pipe, TypeToken(w.ty), Pipe]
  }

  /**
   * An inline definition prints as `Name : NewType`, a payload as
   * `Name(Type)`, a tag as `Name`.
   */
  function PrintVariant(v: Variant): (r: seq<Token>)
  {
    match v.newType
    case Some(nt) => [Ident(v.name), Colon] + PrintNewType(nt)
    case None =>
      match v.ty
      case None => [Ident(v.name)]
      case Some(t) => [Ident(v.name), Paren([TypeToken(t)])]
  }

  /** Comma-separated, with a comma after the last item when `trailing` holds. */
  function PrintVariants(vs: seq<Variant>, trailing: bool): (r: seq<Token>)
  {
    if |vs| == 0 then []
    else if |vs| == 1 then PrintVariant(vs[0]) + (if trailing then [Comma] else [])
    else PrintVariant(vs[0]) + [Comma] + PrintVariants(vs[1..], trailing)
  }

  function PrintField(f: Field): (r: seq<Token>)
  {
    match f.newType
    case Some(nt) => [Ident(f.ident), Colon] + PrintNewType(nt)
    case None => [Ident(f.ident), Colon, TypeToken(f.ty)]
  }

  function PrintFields(fs: seq<Field>, trailing: bool): (r: seq<Token>)
  {
    if |fs| == 0 then []
    else if |fs| == 1 then PrintField(fs[0]) + (if trailing then [Comma] else [])
    else PrintField(fs[0]) + [Comma] + PrintFields(fs[1..], trailing)
  }

  lemma TypeRoundTrip(t: TypeRef, tail: seq<Token>)
    ensures ParseType([TypeToken(t)] + tail) == Ok(Parsed(t, tail, None))
  {
    assert ([TypeToken(t)] + tail)[1..] == tail;
  }

  lemma {:induction false} NewTypeRoundTrip(n: NewType, tail: seq<Token>)
    requires WellFormedNewType(n)
    ensures ParseNewType(PrintNewType(n) + tail) == Ok(Parsed(n, tail, None))
    decreases n, 0
  {
    var toks := PrintNewType(n) + tail;
    match n
    case Enum(e) =>
      VariantsRoundTrip(e.variants, true);
      assert toks[3..] == tail;
      assert ParseEnum(toks) == Ok(Parsed(e, tail, None));
    case Struct(s) =>
      FieldsRoundTrip(s.fields, true);
      assert toks[3..] == tail;
      assert ParseStruct(toks) == Ok(Parsed(s, tail, None));
    case Wrapper(w) =>
      TypeRoundTrip(w.ty, [Pipe] + tail);
      assert toks[2..] == [TypeToken(w.ty)] + ([Pipe] + tail);
      assert ParseWrapper(toks) == Ok(Parsed(w, tail, None));
  }

  lemma {:induction false} VariantRoundTrip(v: Variant, tail: seq<Token>)
    requires WellFormedVariant(v)
    requires tail == [] || tail[0].Comma?
    ensures ParseVariant(PrintVariant(v) + tail) == Ok(Parsed(v, tail, None))
    decreases v, 0
  {
    match v.newType
    case Some(nt) =>
      var toks := PrintVariant(v) + tail;
      NewTypeRoundTrip(nt, tail);
      assert toks[2..] == PrintNewType(nt) + tail;
      VariantInline(toks, v.name, nt, tail);
    case None =>
      match v.ty
      case None => VariantBare(v.name, tail);
      case Some(t) => VariantPayload(v.name, t, tail);
  }

  /** `Name`: a case without payload. */
  lemma VariantBare(name: string, tail: seq<Token>)
    requires tail == [] || tail[0].Comma?
    ensures ParseVariant([Ident(name)] + tail) == Ok(Parsed(Variant(None, name, None), tail, None))
  {
    var toks := [Ident(name)] + tail;
    assert |toks| == 1 || toks[1].Comma?;
    assert toks[1..] == tail;
  }

  /** `Name(Type)`: a case carrying a payload. */
  lemma VariantPayload(name: string, t: TypeRef, tail: seq<Token>)
    requires tail == [] || tail[0].Comma?
    ensures ParseVariant([Ident(name), Paren([TypeToken(t)])] + tail) == Ok(Parsed(Variant(None, name, Some(t)), tail, None))
  {
    var toks := [Ident(name), Paren([TypeToken(t)])] + tail;
    TypeRoundTrip(t, []);
    assert [TypeToken(t)] + [] == [TypeToken(t)];
    assert Peek([TypeToken(t)][1..]) == None;
    assert toks[2..] == tail;
    VariantParen(toks, name, t);
  }

  /**
   * `|Name|`: the shorthand for a case carrying the type of its own name.
   * The printer does not produce this form; it parses with any tail.
   */
  lemma ShorthandForm(name: string, tail: seq<Token>)
    ensures ParseVariant([Pipe, Ident(name), Pipe] + tail)
         == Ok(Parsed(Variant(None, name, Some(Path(name))), tail, None))
  {
    var toks := [Pipe, Ident(name), Pipe] + tail;
    assert toks[3..] == tail;
  }

  /**
   * `Name |T|`: a case defining, inline, the wrapper `Name` around `T`, and
   * carrying it. The printer does not produce this form; it parses with any tail.
   */
  lemma WrapperForm(name: string, t: TypeRef, tail: seq<Token>)
    ensures ParseVariant([Ident(name), Pipe, TypeToken(t), Pipe] + tail)
         == Ok(Parsed(Variant(Some(Wrapper(WrapperStruct(name, t))), name, Some(Path(name))), tail, None))
  {
    var toks := [Ident(name), Pipe, TypeToken(t), Pipe] + tail;
    TypeRoundTrip(t, [Pipe] + tail);
    assert toks[2..] == [TypeToken(t)] + ([Pipe] + tail);
    assert toks[4..] == tail;
    assert ParseWrapper(toks) == Ok(Parsed(WrapperStruct(name, t), tail, None));
  }

  /** A parenthesised type after the name is the case's payload. */
  lemma VariantParen(toks: seq<Token>, name: string, t: TypeRef)
    requires |toks| > 1 && toks[0] == Ident(name) && toks[1].Paren?
    requires ParseParenType(toks[1].inner) == Ok(Parsed(t, [], None))
    ensures ParseVariant(toks) == Ok(Parsed(Variant(None, name, Some(t)), toks[2..], None))
  {
  }

  /** `Name : NewType`: the case refers to the definition it introduces. */
  lemma VariantInline(toks: seq<Token>, name: string, nt: NewType, tail: seq<Token>)
    requires |toks| > 2 && toks[0] == Ident(name) && toks[1] == Colon
    requires ParseNewType(toks[2..]) == Ok(Parsed(nt, tail, None))
    ensures ParseVariant(toks) == Ok(Parsed(Variant(Some(nt), name, Some(RefTo(nt))), tail, None))
  {
  }

  /** How a case list continues after its first case. */
  lemma VariantsCons(toks: seq<Token>, v: Variant, rest: seq<Token>)
    requires |toks| > 0 && ParseVariant(toks) == Ok(Parsed(v, rest, None))
    ensures rest == [] ==> ParseVariants(toks) == Ok(Listed([v], None))
    ensures |rest| > 0 && rest[0].Comma? && ParseVariants(rest[1..]).Ok? ==>
              ParseVariants(toks) == Ok(Listed([v] + ParseVariants(rest[1..]).value.values, ParseVariants(rest[1..]).value.stray))
  {
  }

  lemma {:induction false} VariantsRoundTrip(vs: seq<Variant>, trailing: bool)
    requires forall v | v in vs :: WellFormedVariant(v)
    ensures ParseVariants(PrintVariants(vs, trailing)) == Ok(Listed(vs, None))
    decreases vs, 2
  {
    if |vs| == 1 {
      VariantsSplit(vs);
      VariantsLast(vs[0], trailing);
    } else if |vs| > 1 {
      VariantsSplit(vs);
      VariantsRoundTrip(vs[1..], trailing);
      VariantsStep(vs, trailing);
    }
  }

  lemma VariantsSplit(vs: seq<Variant>)
    requires |vs| > 0 && forall v | v in vs :: WellFormedVariant(v)
    ensures WellFormedVariant(vs[0]) && forall v | v in vs[1..] :: WellFormedVariant(v)
    ensures [vs[0]] + vs[1..] == vs && (|vs| == 1 ==> [vs[0]] == vs)
  {
    assert vs[0] in vs;
    assert forall x | x in vs[1..] :: x in vs;
  }

  lemma VariantsLast(v: Variant, trailing: bool)
    requires WellFormedVariant(v)
    ensures ParseVariants(PrintVariants([v], trailing)) == Ok(Listed([v], None))
    decreases v, 1
  {
    var tail: seq<Token> := if trailing then [Comma] else [];
    var toks := PrintVariants([v], trailing);
    VariantRoundTrip(v, tail);
    assert toks == PrintVariant(v) + tail;
    VariantsCons(toks, v, tail);
    if trailing {
      assert tail[1..] == [];
      assert ParseVariants(tail[1..]) == Ok(Listed([], None));
      assert [v] + [] == [v];
    }
  }

  lemma VariantsStep(vs: seq<Variant>, trailing: bool)
    requires |vs| > 1 && WellFormedVariant(vs[0])
    requires ParseVariants(PrintVariants(vs[1..], trailing)) == Ok(Listed(vs[1..], None))
    ensures ParseVariants(PrintVariants(vs, trailing)) == Ok(Listed([vs[0]] + vs[1..], None))
    decreases vs, 1
  {
    var toks := PrintVariants(vs, trailing);
    var more := PrintVariants(vs[1..], trailing);
    var tail := [Comma] + more;
    PrintVariantsCons(vs, trailing);
    VariantRoundTrip(vs[0], tail);
    assert tail[1..] == more;
    VariantsCons(toks, vs[0], tail);
  }

  lemma PrintVariantsCons(vs: seq<Variant>, trailing: bool)
    requires |vs| > 1
    ensures PrintVariants(vs, trailing) == PrintVariant(vs[0]) + ([Comma] + PrintVariants(vs[1..], trailing))
  {
  }



  lemma {:induction false} FieldRoundTrip(f: Field, tail: seq<Token>)
    requires WellFormedField(f)
    requires tail == [] || tail[0].Comma?
    ensures ParseField(PrintField(f) + tail) == Ok(Parsed(f, tail, None))
    decreases f, 0
  {
    match f.newType
    case Some(nt) =>
      var toks := PrintField(f) + tail;
      NewTypeRoundTrip(nt, tail);
      assert toks[2..] == PrintNewType(nt) + tail;
      FieldInline(toks, f.ident, nt, tail);
    case None =>
      FieldPlain(f.ident, f.ty, tail);
  }

  /** `ident : struct …` or `ident : enum …`: no type starts with a keyword, so the definition is read. */
  lemma FieldInline(toks: seq<Token>, ident: string, nt: NewType, tail: seq<Token>)
    requires |toks| > 2 && toks[0] == Ident(ident) && toks[1] == Colon
    requires toks[2].KwEnum? || toks[2].KwStruct?
    requires ParseNewType(toks[2..]) == Ok(Parsed(nt, tail, None))
    ensures ParseField(toks) == Ok(Parsed(Field(Some(nt), ident, RefTo(nt)), tail, None))
  {
    assert ParseType(toks[2..]).Err?;
  }

  lemma FieldPlain(ident: string, t: TypeRef, tail: seq<Token>)
    ensures ParseField([Ident(ident), Colon, TypeToken(t)] + tail) == Ok(Parsed(Field(None, ident, t), tail, None))
  {
    var toks := [Ident(ident), Colon, TypeToken(t)] + tail;
    TypeRoundTrip(t, tail);
    assert toks[2..] == [TypeToken(t)] + tail;
  }

  lemma FieldsCons(toks: seq<Token>, f: Field, rest: seq<Token>)
    requires |toks| > 0 && ParseField(toks) == Ok(Parsed(f, rest, None))
    ensures rest == [] ==> ParseFields(toks) == Ok(Listed([f], None))
    ensures |rest| > 0 && rest[0].Comma? && ParseFields(rest[1..]).Ok? ==>
              ParseFields(toks) == Ok(Listed([f] + ParseFields(rest[1..]).value.values, ParseFields(rest[1..]).value.stray))
  {
  }

  lemma {:induction false} FieldsRoundTrip(fs: seq<Field>, trailing: bool)
    requires forall f | f in fs :: WellFormedField(f)
    ensures ParseFields(PrintFields(fs, trailing)) == Ok(Listed(fs, None))
    decreases fs, 2
  {
    if |fs| == 1 {
      FieldsSplit(fs);
      FieldsLast(fs[0], trailing);
    } else if |fs| > 1 {
      FieldsSplit(fs);
      FieldsRoundTrip(fs[1..], trailing);
      FieldsStep(fs, trailing);
    }
  }

  lemma FieldsSplit(fs: seq<Field>)
    requires |fs| > 0 && forall f | f in fs :: WellFormedField(f)
    ensures WellFormedField(fs[0]) && forall f | f in fs[1..] :: WellFormedField(f)
    ensures [fs[0]] + fs[1..] == fs && (|fs| == 1 ==> [fs[0]] == fs)
  {
    assert fs[0] in fs;
    assert forall x | x in fs[1..] :: x in fs;
  }

  lemma FieldsLast(f: Field, trailing: bool)
    requires WellFormedField(f)
    ensures ParseFields(PrintFields([f], trailing)) == Ok(Listed([f], None))
    decreases f, 1
  {
    var tail: seq<Token> := if trailing then [Comma] else [];
    var toks := PrintFields([f], trailing);
    FieldRoundTrip(f, tail);
    assert toks == PrintField(f) + tail;
    FieldsCons(toks, f, tail);
    if trailing {
      assert tail[1..] == [];
      assert ParseFields(tail[1..]) == Ok(Listed([], None));
      assert [f] + [] == [f];
    }
  }

  lemma FieldsStep(fs: seq<Field>, trailing: bool)
    requires |fs| > 1 && WellFormedField(fs[0])
    requires ParseFields(PrintFields(fs[1..], trailing)) == Ok(Listed(fs[1..], None))
    ensures ParseFields(PrintFields(fs, trailing)) == Ok(Listed([fs[0]] + fs[1..], None))
    decreases fs, 1
  {
    var toks := PrintFields(fs, trailing);
    var more := PrintFields(fs[1..], trailing);
    var tail := [Comma] + more;
    PrintFieldsCons(fs, trailing);
    FieldRoundTrip(fs[0], tail);
    assert tail[1..] == more;
    FieldsCons(toks, fs[0], tail);
  }

  lemma PrintFieldsCons(fs: seq<Field>, trailing: bool)
    requires |fs| > 1
    ensures PrintFields(fs, trailing) == PrintField(fs[0]) + ([Comma] + PrintFields(fs[1..], trailing))
  {
  }
}

=== FILE: render.dfy ===
/**
 * The code each table entry renders to, as structured items rather than
 * text: the type declaration, the inherent methods and, for a wrapper, the
 * `From` conversion. A small evaluation of constructor and accessor bodies
 * gives the generated API a meaning to prove round trips against.
 */
module Render {
  import opened Wrappers
  import opened Tokens
  import opened Ast

  /** How a generated method takes `self`. */
  datatype Receiver = NoSelf | SharedSelf | MutSelf | OwnedSelf

  datatype Param = Param(name: string, ty: TypeRef)

  datatype Output = SelfType | Shared(ty: TypeRef) | Exclusive(ty: TypeRef) | Owned(ty: TypeRef)

  datatype Body =
    | BuildCase(variant: string, arg: Option<string>) // `Enum::Case(arg)` or `Enum::Case`
    | BuildStruct(fields: seq<string>)                // `Self { a, b, .. }`
    | BuildTuple(source: string)                      // `Self(arg)`
    | BorrowField(field: string)                      // `&self.field`
    | BorrowFieldMut(field: string)                   // `&mut self.field`
    | MoveField(field: string)                        // `self.field`

  datatype Method = Method(name: string, receiver: Receiver, params: seq<Param>, output: Output, body: Body)

  /** One case of a generated enum: `Name(payload)` or `Name`. */
  datatype Case = Case(name: string, payload: Option<TypeRef>)

  datatype Decl =
    | EnumDecl(name: string, cases: seq<Case>)
    | StructDecl(name: string, members: seq<Param>)
    | TupleDecl(name: string, inner: TypeRef)

  /** `impl From<source> for T`, with its `from` method. */
  datatype Conversion = Conversion(source: TypeRef, from: Method)

  datatype Item = Item(decl: Decl, methods: seq<Method>, conversions: seq<Conversion>)

  // ---------------------------------------------------------------- enums

  /** A case renders from its name and payload type only; an inline slot plays no part. */
  function CaseOf(v: Variant): (r: Case)
  {
    Case(v.name, v.ty)
  }

  /** The cases with (`typed`) or without a payload, in their original order. */
  function Select(vs: seq<Variant>, typed: bool): (r: seq<Variant>)
  {
    if |vs| == 0 then []
    else (if vs[0].ty.Some? == typed then [vs[0]] else []) + Select(vs[1..], typed)
  }

  /** The construction helper for one case: lower-cased name, one argument exactly when typed. */
  function Helper(v: Variant): (r: Method)
  {
    match v.ty
    case Some(t) => Method(Lower(v.name), NoSelf, [Param("e", t)], SelfType, BuildCase(v.name, Some("e")))
    case None => Method(Lower(v.name), NoSelf, [], SelfType, BuildCase(v.name, None))
  }

  function Helpers(vs: seq<Variant>): (ms: seq<Method>)
    ensures |ms| == |vs| && forall i | 0 <= i < |vs| :: ms[i] == Helper(vs[i])
  {
    seq(|vs|, i requires 0 <= i < |vs| => Helper(vs[i]))
  }

  function RenderEnum(e: EnumType): (r: Item)
  {
    Item(EnumDecl(e.name, seq(|e.variants|, i requires 0 <= i < |e.variants| => CaseOf(e.variants[i]))),
         Helpers(Select(e.variants, true)) + Helpers(Select(e.variants, false)),
         [])
  }

  // -------------------------------------------------------------- structs

  function MemberOf(f: Field): (r: Param)
  {
    Param(f.ident, f.ty)
  }

  function Members(fs: seq<Field>): (ps: seq<Param>)
    ensures |ps| == |fs| && forall i | 0 <= i < |fs| :: ps[i] == MemberOf(fs[i])
  {
    seq(|fs|, i requires 0 <= i < |fs| => MemberOf(fs[i]))
  }

  function Idents(fs: seq<Field>): (ids: seq<string>)
    ensures |ids| == |fs| && forall i | 0 <= i < |fs| :: ids[i] == fs[i].ident
  {
    seq(|fs|, i requires 0 <= i < |fs| => fs[i].ident)
  }

  function MutName(ident: string): (r: string)
  {
    ident + "_mut"
  }

  function Getter(f: Field): (r: Method)
  {
    Method(f.ident, SharedSelf, [], Shared(f.ty), BorrowField(f.ident))
  }

  function MutGetter(f: Field): (r: Method)
  {
    Method(MutName(f.ident), MutSelf, [], Exclusive(f.ty), BorrowFieldMut(f.ident))
  }

  function StructNew(s: StructType): (r: Method)
  {
    Method("new", NoSelf, Members(s.fields), SelfType, BuildStruct(Idents(s.fields)))
  }

  /** `new`, then one getter per field, then one mutable getter per field. */
  function RenderStruct(s: StructType): (r: Item)
  {
    var n := |s.fields|;
    Item(StructDecl(s.name, Members(s.fields)),
         [StructNew(s)]
         + seq(n, i requires 0 <= i < n => Getter(s.fields[i]))
         + seq(n, i requires 0 <= i < n => MutGetter(s.fields[i])),
         [])
  }

  // ------------------------------------------------------------- wrappers

  function RenderWrapper(w: WrapperStruct): (r: Item)
  {
    var t := w.ty;
    Item(TupleDecl(w.name, t),
         [ Method("new", NoSelf, [Param("inner", t)], SelfType, BuildTuple("inner")),
           Method("inner", SharedSelf, [], Shared(t), BorrowField("0")),
           Method("inner_mut", MutSelf, [], Exclusive(t), BorrowFieldMut("0")),
           Method("into_inner", OwnedSelf, [], Owned(t), MoveField("0")) ],
         [Conversion(t, Method("from", NoSelf, [Param("i", t)], SelfType, BuildTuple("i")))])
  }

  function RenderNewType(n: NewType): (r: Item)
  {
    match n
    case Enum(e) => RenderEnum(e)
    case Struct(s) => RenderStruct(s)
    case Wrapper(w) => RenderWrapper(w)
  }

  // ------------------------------------------------------------ evaluation

  /** A value of a generated type: a record of named members, or an enum case. */
  datatype Value<V> = Record(members: map<string, V>) | Tagged(variant: string, payload: Option<V>)

  /** Binds parameters to arguments; a later parameter of the same name shadows. */
  function Bind<V>(ps: seq<Param>, args: seq<V>): (env: map<string, V>)
    requires |ps| == |args|
    ensures env.Keys == set i | 0 <= i < |ps| :: ps[i].name
  {
    if |ps| == 0 then map[]
    else Bind(ps[..|ps| - 1], args[..|args| - 1])[ps[|ps| - 1].name := args[|args| - 1]]
  }

  /** Calls a generated associated function (no `self`) on `args`. */
  function Construct<V>(m: Method, args: seq<V>): (r: Option<Value<V>>)
  {
    if !m.receiver.NoSelf? || |args| != |m.params| then None
    else
      var env := Bind(m.params, args);
      match m.body
      case BuildCase(c, None) => Some(Tagged(c, None))
      case BuildCase(c, Some(a)) => if a in env then Some(Tagged(c, Some(env[a]))) else None
      case BuildStruct(fs) =>
        if forall f | f in fs :: f in env then Some(Record(map f | f in fs && f in env :: env[f])) else None
      case BuildTuple(a) => if a in env then Some(Record(map["0" := env[a]])) else None
      case _ => None
  }

  /** Calls a generated accessor on `obj`: what it borrows or moves out. */
  function Access<V>(m: Method, obj: Value<V>): (r: Option<V>)
  {
    match m.body
    case BorrowField(f) => if m.receiver.SharedSelf? && obj.Record? && f in obj.members then Some(obj.members[f]) else None
    case BorrowFieldMut(f) => if m.receiver.MutSelf? && obj.Record? && f in obj.members then Some(obj.members[f]) else None
    case MoveField(f) => if m.receiver.OwnedSelf? && obj.Record? && f in obj.members then Some(obj.members[f]) else None
    case _ => None
  }

  // --------------------------------------------------------- enum helpers

  /** Selection distributes over concatenation: it keeps the original order. */
  lemma {:induction false} SelectAppend(a: seq<Variant>, b: seq<Variant>, typed: bool)
    ensures Select(a + b, typed) == Select(a, typed) + Select(b, typed)
  {
    if |a| == 0 {
      assert a + b == b;
    } else {
      var head := if a[0].ty.Some? == typed then [a[0]] else [];
      var ab := a + b;
      assert ab[0] == a[0];
      assert ab[1..] == a[1..] + b;
      calc {
        Select(ab, typed);
        head + Select(ab[1..], typed);
        { SelectAppend(a[1..], b, typed); }
        head + (Select(a[1..], typed) + Select(b, typed));
        (head + Select(a[1..], typed)) + Select(b, typed);
      }
    }
  }

  /** The two selections split the cases: each case lands in exactly the one its payload picks. */
  lemma SelectPartition(vs: seq<Variant>)
    ensures multiset(Select(vs, true)) + multiset(Select(vs, false)) == multiset(vs)
    ensures forall v | v in Select(vs, true) :: v.ty.Some?
    ensures forall v | v in Select(vs, false) :: v.ty.None?
  {
    SelectMultiset(vs);
    SelectKeeps(vs, true);
    SelectKeeps(vs, false);
  }

  lemma {:induction false} SelectMultiset(vs: seq<Variant>)
    ensures multiset(Select(vs, true)) + multiset(Select(vs, false)) == multiset(vs)
  {
    if |vs| > 0 {
      SelectMultiset(vs[1..]);
      assert vs == [vs[0]] + vs[1..];
    }
  }

  lemma {:induction false} SelectKeeps(vs: seq<Variant>, typed: bool)
    ensures forall v | v in Select(vs, typed) :: v in vs && v.ty.Some? == typed
  {
    if |vs| > 0 {
      SelectKeeps(vs[1..], typed);
      assert forall v | v in vs[1..] :: v in vs;
    }
  }

  lemma HelpersAppend(a: seq<Variant>, b: seq<Variant>)
    ensures Helpers(a + b) == Helpers(a) + Helpers(b)
  {
  }

  lemma {:induction false} HelpersPermutation(vs: seq<Variant>)
    ensures multiset(Helpers(Select(vs, true)) + Helpers(Select(vs, false))) == multiset(Helpers(vs))
  {
    if |vs| > 0 {
      HelpersPermutation(vs[1..]);
      var t := if vs[0].ty.Some? then [vs[0]] else [];
      var r := if vs[0].ty.Some? then [] else [vs[0]];
      HelpersAppend(t, Select(vs[1..], true));
      HelpersAppend(r, Select(vs[1..], false));
      HelpersAppend([vs[0]], vs[1..]);
      assert vs == [vs[0]] + vs[1..];
      assert Select(vs, true) == t + Select(vs[1..], true);
      assert Select(vs, false) == r + Select(vs[1..], false);
      assert multiset(Helpers(t)) + multiset(Helpers(r)) == multiset(Helpers([vs[0]]));
    }
  }

  /**
   * An enum declares its cases in order, each with its own payload, and
   * renders one helper per variant: the helpers of the typed
   * variants first, then those of the raw ones, each group in declaration
   * order. A helper takes the payload when the variant has one and nothing
   * otherwise.
   */
  lemma EnumHelpers(e: EnumType)
    ensures var d := RenderEnum(e).decl;
      && d == EnumDecl(e.name, d.cases) && |d.cases| == |e.variants|
      && forall i | 0 <= i < |e.variants| :: d.cases[i] == Case(e.variants[i].name, e.variants[i].ty)
    ensures var ms, k := RenderEnum(e).methods, |Select(e.variants, true)|;
      && multiset(ms) == multiset(Helpers(e.variants))
      && (forall i | 0 <= i < k :: |ms[i].params| == 1)
      && (forall i | k <= i < |ms| :: |ms[i].params| == 0)
    ensures var ms, vs := RenderEnum(e).methods, e.variants;
      forall i | 0 <= i < |vs| ::
        var at := if vs[i].ty.Some? then |Select(vs[..i], true)|
                  else |Select(vs, true)| + |Select(vs[..i], false)|;
        at < |ms| && ms[at] == Helper(vs[i])
  {
    assert RenderEnum(e).methods == Helpers(Select(e.variants, true)) + Helpers(Select(e.variants, false));
    HelpersPermutation(e.variants);
    HelpersArity(e.variants);
    forall i | 0 <= i < |e.variants| {
      HelperAt(e.variants, i);
    }
  }

  /** The typed helpers take one argument and the raw ones none. */
  lemma HelpersArity(vs: seq<Variant>)
    ensures var ms, k := Helpers(Select(vs, true)) + Helpers(Select(vs, false)), |Select(vs, true)|;
      && (forall i | 0 <= i < k :: |ms[i].params| == 1)
      && (forall i | k <= i < |ms| :: |ms[i].params| == 0)
  {
    SelectPartition(vs);
    var typed, raw := Select(vs, true), Select(vs, false);
    var k := |typed|;
    var ms := Helpers(typed) + Helpers(raw);
    forall i | 0 <= i < k
      ensures |ms[i].params| == 1
    {
      assert typed[i] in typed;
      assert ms[i] == Helper(typed[i]);
    }
    forall i | k <= i < |ms|
      ensures |ms[i].params| == 0
    {
      assert raw[i - k] in raw;
      assert ms[i] == Helper(raw[i - k]);
    }
  }

  /** Where case `i`'s helper sits among the typed-then-raw helpers. */
  lemma HelperAt(vs: seq<Variant>, i: nat)
    requires i < |vs|
    ensures var ms := Helpers(Select(vs, true)) + Helpers(Select(vs, false));
      var at := if vs[i].ty.Some? then |Select(vs[..i], true)|
                else |Select(vs, true)| + |Select(vs[..i], false)|;
      at < |ms| && ms[at] == Helper(vs[i])
  {
    SelectAt(vs, i, vs[i].ty.Some?);
  }

  /**
   * Case `i` sits in its selection right after the selected cases that
   * precede it: the selection keeps declaration order.
   */
  lemma SelectAt(vs: seq<Variant>, i: nat, typed: bool)
    requires i < |vs| && vs[i].ty.Some? == typed
    ensures |Select(vs[..i], typed)| < |Select(vs, typed)|
    ensures Select(vs, typed)[|Select(vs[..i], typed)|] == vs[i]
  {
    assert vs == vs[..i] + ([vs[i]] + vs[i + 1..]);
    SelectAppend(vs[..i], [vs[i]] + vs[i + 1..], typed);
    SelectAppend([vs[i]], vs[i + 1..], typed);
    assert Select([vs[i]], typed) == [vs[i]] + Select([vs[i]][1..], typed);
    assert [vs[i]][1..] == [];
  }

  /** What a helper call builds: the variant, holding the argument exactly when it is typed. */
  lemma HelperBuilds<V>(v: Variant, args: seq<V>)
    requires |args| == (if v.ty.Some? then 1 else 0)
    ensures Helper(v).name == Lower(v.name)
    ensures Construct(Helper(v), args) == Some(Tagged(v.name, if v.ty.Some? then Some(args[0]) else None))
  {
  }

  /**
   * Two helpers of one enum clash exactly when the variant names agree up
   * to ASCII case (`Plus` and `PLUS`): the generator does not check this.
   */
  lemma HelperNameClash(v: Variant, w: Variant)
    ensures Helper(v).name == Helper(w).name <==> SameIgnoringCase(v.name, w.name)
  {
    LowerCollides(v.name, w.name);
  }

  // ------------------------------------------------------ struct accessors

  predicate Distinct(names: seq<string>)
  {
    forall i, j | 0 <= i < j < |names| :: names[i] != names[j]
  }

  function MethodNames(ms: seq<Method>): (names: seq<string>)
    ensures |names| == |ms| && forall i | 0 <= i < |ms| :: names[i] == ms[i].name
  {
    seq(|ms|, i requires 0 <= i < |ms| => ms[i].name)
  }

  /**
   * The layout of a struct's methods: `new` taking the fields in
   * declaration order, then getter `i` named by field `i`'s identifier
   * verbatim, then mutable getter `i` named by it plus `_mut`.
   */
  lemma StructMethodNames(s: StructType)
    ensures var ms, n := RenderStruct(s).methods, |s.fields|;
      && |ms| == 1 + 2 * n
      && ms[0].name == "new" && ms[0].params == Members(s.fields)
      && (forall i | 0 <= i < n :: ms[1 + i].name == s.fields[i].ident)
      && (forall i | 0 <= i < n :: ms[1 + n + i].name == s.fields[i].ident + "_mut")
  {
  }

  lemma SuffixCancel(a: string, b: string, t: string)
    requires a + t == b + t
    ensures a == b
  {
    assert a == (a + t)[..|a|];
    assert b == (b + t)[..|b|];
  }

  function MutNames(ids: seq<string>): (ms: seq<string>)
    ensures |ms| == |ids|
  {
    seq(|ids|, i requires 0 <= i < |ids| => MutName(ids[i]))
  }

  /** The names of a struct's methods, given its field names. */
  function AccessorLayout(ids: seq<string>): (names: seq<string>)
    ensures |names| == 1 + 2 * |ids| && names[0] == "new"
  {
    ["new"] + ids + MutNames(ids)
  }

  lemma LayoutAt(ids: seq<string>, k: nat)
    requires 0 < k < 1 + 2 * |ids|
    ensures k <= |ids| ==> AccessorLayout(ids)[k] == ids[k - 1]
    ensures k > |ids| ==> AccessorLayout(ids)[k] == MutName(ids[k - 1 - |ids|])
  {
  }

  /** When the accessor names of a struct with field names `ids` are free of clashes. */
  predicate AccessorNamesFree(ids: seq<string>)
  {
    && Distinct(ids)
    && "new" !in ids
    && forall j | 0 <= j < |ids| :: MutName(ids[j]) !in ids
  }

  lemma NewIsNoMutName(id: string)
    ensures MutName(id) != "new"
  {
    assert |MutName(id)| == |id| + 4;
  }

  lemma MutNameInjective(a: string, b: string)
    requires MutName(a) == MutName(b)
    ensures a == b
  {
    SuffixCancel(a, b, "_mut");
  }

  lemma AccessorPairDiffers(ids: seq<string>, i: nat, j: nat)
    requires AccessorNamesFree(ids)
    requires i < j < |AccessorLayout(ids)|
    ensures AccessorLayout(ids)[i] != AccessorLayout(ids)[j]
  {
    var n := |ids|;
    if j <= n {
      PlainPair(ids, i, j);
    } else if i == 0 {
      NewMutPair(ids, j - n);
    } else if i <= n {
      assert MutName(ids[j - n - 1]) !in ids;
      PlainMutPair(ids, i, j - n);
    } else {
      MutPair(ids, i - n, j - n);
    }
  }

  lemma PlainPair(ids: seq<string>, i: nat, j: nat)
    requires Distinct(ids) && "new" !in ids
    requires i < j <= |ids|
    ensures AccessorLayout(ids)[i] != AccessorLayout(ids)[j]
  {
    LayoutAt(ids, j);
    assert ids[j - 1] in ids;
    if i > 0 {
      LayoutAt(ids, i);
    }
  }

  lemma NewMutPair(ids: seq<string>, j: nat)
    requires 0 < j <= |ids|
    ensures AccessorLayout(ids)[0] != AccessorLayout(ids)[|ids| + j]
  {
    LayoutAt(ids, |ids| + j);
    NewIsNoMutName(ids[j - 1]);
  }

  lemma PlainMutPair(ids: seq<string>, i: nat, j: nat)
    requires 0 < i <= |ids| && 0 < j <= |ids|
    requires MutName(ids[j - 1]) !in ids
    ensures AccessorLayout(ids)[i] != AccessorLayout(ids)[|ids| + j]
  {
    LayoutAt(ids, i);
    LayoutAt(ids, |ids| + j);
    assert ids[i - 1] in ids;
  }

  lemma MutPair(ids: seq<string>, i: nat, j: nat)
    requires Distinct(ids)
    requires 0 < i < j <= |ids|
    ensures AccessorLayout(ids)[|ids| + i] != AccessorLayout(ids)[|ids| + j]
  {
    LayoutAt(ids, |ids| + i);
    LayoutAt(ids, |ids| + j);
    if MutName(ids[i - 1]) == MutName(ids[j - 1]) {
      MutNameInjective(ids[i - 1], ids[j - 1]);
    }
  }

  lemma AccessorNamesNecessary(ids: seq<string>)
    requires Distinct(AccessorLayout(ids))
    ensures AccessorNamesFree(ids)
  {
    var names := AccessorLayout(ids);
    var n := |ids|;
    forall i, j | 0 <= i < j < n
      ensures ids[i] != ids[j]
    {
      LayoutAt(ids, 1 + i);
      LayoutAt(ids, 1 + j);
      assert names[1 + i] != names[1 + j];
    }
    forall i, j | 0 <= i < n && 0 <= j < n
      ensures ids[i] != MutName(ids[j])
    {
      LayoutAt(ids, 1 + i);
      LayoutAt(ids, 1 + n + j);
      assert names[1 + i] != names[1 + n + j];
    }
    forall i | 0 <= i < n
      ensures ids[i] != "new"
    {
      LayoutAt(ids, 1 + i);
      assert names[0] != names[1 + i];
    }
  }

  lemma AccessorNamesSufficient(ids: seq<string>)
    requires AccessorNamesFree(ids)
    ensures Distinct(AccessorLayout(ids))
  {
    var names := AccessorLayout(ids);
    forall i, j | 0 <= i < j < |names|
      ensures names[i] != names[j]
    {
      AccessorPairDiffers(ids, i, j);
    }
  }

  /**
   * A struct's generated methods have pairwise distinct names exactly when
   * its field names are distinct, none is `new`, and none is another one
   * followed by `_mut`. The generator checks none of this.
   */
  lemma StructNamesDistinct(s: StructType)
    ensures Distinct(MethodNames(RenderStruct(s).methods)) <==> AccessorNamesFree(Idents(s.fields))
  {
    var ids := Idents(s.fields);
    StructNamesLayout(s);
    if Distinct(AccessorLayout(ids)) {
      AccessorNamesNecessary(ids);
    }
    if AccessorNamesFree(ids) {
      AccessorNamesSufficient(ids);
    }
  }

  lemma StructMethodAt(s: StructType, i: nat)
    requires i < |s.fields|
    ensures RenderStruct(s).methods[0] == StructNew(s)
    ensures RenderStruct(s).methods[1 + i] == Getter(s.fields[i])
    ensures RenderStruct(s).methods[1 + |s.fields| + i] == MutGetter(s.fields[i])
  {
  }

  lemma StructShape(s: StructType)
    ensures |RenderStruct(s).methods| == 1 + 2 * |s.fields|
    ensures RenderStruct(s).methods[0] == StructNew(s)
  {
  }

  lemma StructNamesLayout(s: StructType)
    ensures MethodNames(RenderStruct(s).methods) == AccessorLayout(Idents(s.fields))
  {
    var ids := Idents(s.fields);
    var n := |ids|;
    var names := MethodNames(RenderStruct(s).methods);
    StructShape(s);
    assert |names| == |AccessorLayout(ids)| && names[0] == "new";
    forall k | 0 < k < |names|
      ensures names[k] == AccessorLayout(ids)[k]
    {
      LayoutAt(ids, k);
      if k <= n {
        StructMethodAt(s, k - 1);
      } else {
        StructMethodAt(s, k - 1 - n);
      }
    }
  }

  // ----------------------------------------------------------- round trips

  lemma {:induction false} BindLookup<V>(ps: seq<Param>, args: seq<V>, i: nat)
    requires |ps| == |args| && i < |ps|
    requires forall j, k | 0 <= j < k < |ps| :: ps[j].name != ps[k].name
    ensures ps[i].name in Bind(ps, args) && Bind(ps, args)[ps[i].name] == args[i]
  {
    if i < |ps| - 1 {
      BindLookup(ps[..|ps| - 1], args[..|args| - 1], i);
    }
  }

  /** Every parameter name is bound. */
  lemma BindCovers<V>(ps: seq<Param>, args: seq<V>, k: nat)
    requires |ps| == |args| && k < |ps|
    ensures ps[k].name in Bind(ps, args)
  {
  }

  /** `new` builds the record whose members are the arguments, by field name. */
  lemma StructNewBuilds<V>(s: StructType, args: seq<V>)
    requires |args| == |s.fields|
    ensures Construct(StructNew(s), args)
            == Some(Record(map f | f in Idents(s.fields) && f in Bind(Members(s.fields), args)
                              :: Bind(Members(s.fields), args)[f]))
  {
    var ps := Members(s.fields);
    var ids := Idents(s.fields);
    forall f | f in ids
      ensures f in Bind(ps, args)
    {
      var k :| 0 <= k < |ids| && ids[k] == f;
      BindCovers(ps, args, k);
    }
  }

  /**
   * Constructing a struct with `new` and reading any field back through its
   * getter or its mutable getter returns the argument given for that field.
   */
  lemma StructRoundTrip<V>(s: StructType, args: seq<V>, i: nat)
    requires Distinct(Idents(s.fields))
    requires |args| == |s.fields| && i < |s.fields|
    ensures var ms := RenderStruct(s).methods;
      && Construct(ms[0], args).Some?
      && Access(ms[1 + i], Construct(ms[0], args).value) == Some(args[i])
      && Access(ms[1 + |s.fields| + i], Construct(ms[0], args).value) == Some(args[i])
  {
    StructMethodAt(s, i);
    StructNewHolds(s, args, i);
  }

  /** The record `new` builds holds each argument under its field's name. */
  lemma StructNewHolds<V>(s: StructType, args: seq<V>, i: nat)
    requires Distinct(Idents(s.fields))
    requires |args| == |s.fields| && i < |s.fields|
    ensures Construct(StructNew(s), args).Some?
    ensures var r := Construct(StructNew(s), args).value;
      r.Record? && s.fields[i].ident in r.members && r.members[s.fields[i].ident] == args[i]
  {
    var ps := Members(s.fields);
    var ids := Idents(s.fields);
    assert forall j, k | 0 <= j < k < |ps| :: ps[j].name != ps[k].name by {
      forall j, k | 0 <= j < k < |ps|
        ensures ps[j].name != ps[k].name
      {
        assert ps[j].name == ids[j] && ps[k].name == ids[k];
      }
    }
    BindLookup(ps, args, i);
    StructNewBuilds(s, args);
    assert ids[i] in ids && ids[i] == ps[i].name;
  }

  /**
   * A wrapper is the tuple struct around its type, with the methods `new`,
   * `inner`, `inner_mut` and `into_inner` and one `From` conversion from
   * the wrapped type. It gives back what it wraps: through `into_inner`
   * after `new`, and through `inner` and `inner_mut` after the conversion.
   */
  lemma WrapperRoundTrip<V>(w: WrapperStruct, x: V)
    ensures RenderWrapper(w).decl == TupleDecl(w.name, w.ty)
    ensures MethodNames(RenderWrapper(w).methods) == ["new", "inner", "inner_mut", "into_inner"]
    ensures |RenderWrapper(w).conversions| == 1
    ensures RenderWrapper(w).conversions[0].source == w.ty
    ensures RenderWrapper(w).conversions[0].from.name == "from"
    ensures var item := RenderWrapper(w);
      && Construct(item.methods[0], [x]).Some?
      && Access(item.methods[3], Construct(item.methods[0], [x]).value) == Some(x)
      && Construct(item.conversions[0].from, [x]).Some?
      && Access(item.methods[1], Construct(item.conversions[0].from, [x]).value) == Some(x)
      && Access(item.methods[2], Construct(item.conversions[0].from, [x]).value) == Some(x)
  {
  }
}

=== FILE: scenarios.dfy ===
/**
 * The repository's own parsing examples, worked through the model on
 * pre-lexed input.
 */
module Scenarios {
  import opened Wrappers
  import opened Tokens
  import opened Ast
  import opened Parser
  import opened Flattener
  import opened Grammar
  import opened Visit

  /** `Call(Lmao)`: a case carrying a payload of type `Lmao`. */
  lemma PayloadVariant()
    ensures ParseVariant([Ident("Call"), Paren([Ident("Lmao")])])
         == Ok(Parsed(Variant(None, "Call", Some(Path("Lmao"))), [], None))
  {
    assert ParseParenType([Ident("Lmao")]) == Ok(Parsed(Path("Lmao"), [], None));
  }

  /** `|Call|`: a case named `Call` carrying the type `Call`. */
  lemma ShorthandVariant()
    ensures ParseVariant([Pipe, Ident("Call"), Pipe])
         == Ok(Parsed(Variant(None, "Call", Some(Path("Call"))), [], None))
  {
  }

  /** `Call |isize|`: a case `Call` and, inline, a wrapper `Call` around `isize`. */
  lemma WrapperVariant()
    ensures ParseVariant([Ident("Call"), Pipe, Ident("isize"), Pipe])
         == Ok(Parsed(Variant(Some(Wrapper(WrapperStruct("Call", Path("isize")))), "Call", Some(Path("Call"))), [], None))
  {
    assert ParseWrapper([Ident("Call"), Pipe, Ident("isize"), Pipe])
        == Ok(Parsed(WrapperStruct("Call", Path("isize")), [], None));
  }

  /** `Call: struct Call {}`: a case `Call` defining the empty struct `Call` inline. */
  lemma StructVariant()
    ensures ParseVariant([Ident("Call"), Colon, KwStruct, Ident("Call"), Brace([])])
         == Ok(Parsed(Variant(Some(Struct(StructType("Call", []))), "Call", Some(Path("Call"))), [], None))
  {
    var toks := [Ident("Call"), Colon, KwStruct, Ident("Call"), Brace([])];
    assert ParseFields([]) == Ok(Listed([], None));
    assert ParseStruct(toks[2..]) == Ok(Parsed(StructType("Call", []), [], None));
    assert ParseNewType(toks[2..]) == Ok(Parsed(Struct(StructType("Call", [])), [], None));
  }

  /** `a: usize` is a plain field; `a: struct A {}` defines `A` inline. */
  lemma FieldForms()
    ensures ParseField([Ident("a"), Colon, Ident("usize")])
         == Ok(Parsed(Field(None, "a", Path("usize")), [], None))
    ensures ParseField([Ident("a"), Colon, KwStruct, Ident("A"), Brace([])])
         == Ok(Parsed(Field(Some(Struct(StructType("A", []))), "a", Path("A")), [], None))
  {
    PlainField();
    InlineField();
  }

  lemma PlainField()
    ensures ParseField([Ident("a"), Colon, Ident("usize")])
         == Ok(Parsed(Field(None, "a", Path("usize")), [], None))
  {
    var toks := [Ident("a"), Colon, Ident("usize")];
    assert ParseType(toks[2..]) == Ok(Parsed(Path("usize"), [], None));
  }

  lemma InlineField()
    ensures ParseField([Ident("a"), Colon, KwStruct, Ident("A"), Brace([])])
         == Ok(Parsed(Field(Some(Struct(StructType("A", []))), "a", Path("A")), [], None))
  {
    var toks := [Ident("a"), Colon, KwStruct, Ident("A"), Brace([])];
    assert ParseType(toks[2..]).Err?;
    assert ParseFields([]) == Ok(Listed([], None));
    assert ParseStruct(toks[2..]) == Ok(Parsed(StructType("A", []), [], None));
    assert ParseNewType(toks[2..]) == Ok(Parsed(Struct(StructType("A", [])), [], None));
  }

  const LitCases: seq<Token> :=
    [Ident("Int"), Paren([Ident("isize")]), Comma, Ident("Ident"), Pipe, Ident("String"), Pipe]

  const IdentWrapper: NewType := Wrapper(WrapperStruct("Ident", Path("String")))

  const LitEnum: NewType := Enum(EnumType("Lit", [
    Variant(None, "Int", Some(Path("isize"))),
    Variant(Some(IdentWrapper), "Ident", Some(Path("Ident")))]))

  lemma IntCase()
    ensures ParseVariant(LitCases) == Ok(Parsed(LitEnum.e.variants[0], LitCases[2..], None))
  {
    assert ParseParenType([Ident("isize")]) == Ok(Parsed(Path("isize"), [], None));
  }

  lemma IdentCase()
    ensures ParseVariants(LitCases[3..]) == Ok(Listed([LitEnum.e.variants[1]], None))
  {
    assert ParseWrapper(LitCases[3..]) == Ok(Parsed(WrapperStruct("Ident", Path("String")), [], None));
    assert ParseVariant(LitCases[3..]) == Ok(Parsed(LitEnum.e.variants[1], [], None));
  }

  /** `Int(isize), Ident |String|`: a payload case, then a case defining a wrapper inline. */
  lemma LitCasesParse()
    ensures ParseVariants(LitCases) == Ok(Listed(LitEnum.e.variants, None))
  {
    var v0, v1 := LitEnum.e.variants[0], LitEnum.e.variants[1];
    IntCase();
    IdentCase();
    assert LitCases[2..][1..] == LitCases[3..];
    assert ParseVariants(LitCases) == Ok(Listed([v0] + [v1], None));
    assert [v0] + [v1] == LitEnum.e.variants;
  }

  const LitGrammar: seq<Token> := [Ident("Lit"), Colon, KwEnum, Ident("Lit"), Brace(LitCases)]

  const LitTop: Variant := Variant(Some(LitEnum), "Lit", Some(Path("Lit")))

  lemma LitEnumParse()
    ensures ParseNewType(LitGrammar[2..]) == Ok(Parsed(LitEnum, [], None))
  {
    var toks := LitGrammar[2..];
    assert toks[2].inner == LitCases;
    LitCasesParse();
    assert ParseEnum(toks) == Ok(Parsed(LitEnum.e, [], None));
  }

  lemma LitGrammarParse()
    ensures ParseVariants(LitGrammar) == Ok(Listed([LitTop], None))
  {
    LitEnumParse();
    assert ParseVariant(LitGrammar) == Ok(Parsed(LitTop, [], None));
  }

  /** The table of `Lit`: the enum itself, then the wrapper it defines inline. */
  lemma LitTable()
    ensures Hoist([LitTop]) == Context([LitEnum, IdentWrapper], [Variant(None, "Lit", Some(Path("Lit")))])
  {
    var vs := LitEnum.e.variants;
    assert Table(IdentWrapper) == [IdentWrapper];
    assert VariantTables(vs[1..][1..]) == [];
    assert VariantTables(vs[1..]) == [IdentWrapper];
    assert VariantTables(vs) == [IdentWrapper];
    assert Table(LitEnum) == [LitEnum, IdentWrapper];
    assert Hoist([LitTop][1..]) == Context([], []);
  }

  /**
   * `Lit: enum Lit { Int(isize), Ident |String| }`: the table lists `Lit`
   * and then the wrapper `Ident` it defines, and the only top-level case
   * refers to `Lit`.
   */
  lemma NestedGrammar()
    ensures ParseContext(LitGrammar)
         == Ok(Context([LitEnum, IdentWrapper], [Variant(None, "Lit", Some(Path("Lit")))]))
  {
    LitGrammarParse();
    LitTable();
  }

  /** Visiting `Lit` would recurse into `Ident`, a table entry, and not into `Int(isize)`. */
  lemma NestedVisitor()
    ensures VariantsToRecurse(NewVisitor(Context([LitEnum, IdentWrapper], [])), LitEnum.e.variants)
         == [LitEnum.e.variants[1]]
  {
    var ts := [LitEnum, IdentWrapper];
    var vis := NewVisitor(Context(ts, []));
    var vs := LitEnum.e.variants;
    assert Name(ts[0]) == "Lit" && Name(ts[1]) == "Ident";
    assert "Ident" in vis.newIdents;
    assert "isize" !in vis.newIdents;
    assert PayloadText(vs[0]) == "isize" && PayloadText(vs[1]) == "Ident";
    assert VariantsToRecurse(vis, vs[1..]) == [vs[1]];
  }

  /** A missing separator between two cases is reported where the separator should be. */
  lemma MissingComma()
    ensures ParseVariants([Ident("A"), Ident("B")]) == Err(ParseError(Some(Ident("B")), {ExpectComma}))
  {
  }

  /**
   * `A : B`: after an identifier that no `|` follows, a definition can only
   * start with `struct` or `enum`, and only those two are expected.
   */
  lemma NotADefinition()
    ensures ParseVariant([Ident("A"), Colon, Ident("B")])
         == Err(ParseError(Some(Ident("B")), {ExpectStruct, ExpectEnum}))
  {
    var toks := [Ident("A"), Colon, Ident("B")];
    assert ParseNewType(toks[2..]) == Err(ParseError(Some(Ident("B")), {ExpectStruct, ExpectEnum}));
  }

  /**
   * `A(x y), B`: the stray `y` does not stop the list; the grammar fails on
   * it, as an unexpected token, once the rest has parsed.
   */
  lemma StrayReportedLast()
    ensures ParseVariants([Ident("A"), Paren([Ident("x"), Ident("y")]), Comma, Ident("B")])
         == Ok(Listed([Variant(None, "A", Some(Path("x"))), Variant(None, "B", None)], Some(Ident("y"))))
    ensures ParseContext([Ident("A"), Paren([Ident("x"), Ident("y")]), Comma, Ident("B")])
         == Err(ParseError(Some(Ident("y")), {}))
  {
    var toks := [Ident("A"), Paren([Ident("x"), Ident("y")]), Comma, Ident("B")];
    assert ParseVariant(toks) == Ok(Parsed(Variant(None, "A", Some(Path("x"))), toks[2..], Some(Ident("y"))));
    assert toks[2..][1..] == toks[3..] == [Ident("B")];
    assert ParseVariants(toks[3..]) == Ok(Listed([Variant(None, "B", None)], None));
    assert [Variant(None, "A", Some(Path("x")))] + [Variant(None, "B", None)]
        == [Variant(None, "A", Some(Path("x"))), Variant(None, "B", None)];
  }

  /** `A(x y) B`: the missing separator is reported, not the stray before it. */
  lemma StrayYieldsToError()
    ensures ParseContext([Ident("A"), Paren([Ident("x"), Ident("y")]), Ident("B")])
         == Err(ParseError(Some(Ident("B")), {ExpectComma}))
  {
    var toks := [Ident("A"), Paren([Ident("x"), Ident("y")]), Ident("B")];
    assert ParseVariant(toks) == Ok(Parsed(Variant(None, "A", Some(Path("x"))), toks[2..], Some(Ident("y"))));
    assert toks[2..] == [Ident("B")];
    assert ParseVariants(toks) == Err(ParseError(Some(Ident("B")), {ExpectComma}));
  }

  /** Keywords and the lone `_` are identifiers in shape, but well-lexed input holds none as a name. */
  lemma KeywordsAreNotNames()
    ensures IsIdent("fn") && !WellLexed([Ident("fn")])
    ensures IsIdent("_") && !WellLexed([Ident("_")])
    ensures WellLexed([Ident("Lit"), Paren([Ident("isize")])])
  {
    assert WellLexedToken([Ident("fn")][0]) == (IsIdent("fn") && !IsKeyword("fn"));
    assert WellLexedToken([Ident("_")][0]) == (IsIdent("_") && !IsKeyword("_"));
  }
}

=== FILE: tokens.dfy ===
/**
 * The token stream the grammar compiler reads, the abstract stand-in for a
 * host type expression, and the naming helpers (identifiers, ASCII
 * lower-casing) that the code generators apply to names.
 */
module Tokens {

  /**
   * A type expression. A bare identifier such as `Lit` or `isize` is a
   * `Path`; anything longer (`Box<Expr>`, `Option<Expr>`, `(u8, u8)`) is
   * `Other`, carrying the text its tokens print as (`Box < Expr >`).
   */
  datatype TypeRef = Path(name: string) | Other(text: string)

  /**
   * Pre-lexed input. `Paren` and `Brace` are delimited groups holding their
   * own token sequence; `Ty` is a type expression already grouped by the
   * lexer, which in well-lexed input is never a bare identifier (see
   * `WellLexedToken`).
   */
  datatype Token =
    | Pipe
    | Colon
    | Comma
    | KwStruct
    | KwEnum
    | Ident(id: string)
    | Paren(inner: seq<Token>)
    | Brace(inner: seq<Token>)
    | Ty(ty: TypeRef)

  /** Number of tokens, counting the ones nested inside groups. */
  function TokenSize(t: Token): (r: nat)
  {
    match t
    case Paren(c) => 1 + Size(c)
    case Brace(c) => 1 + Size(c)
    case _ => 1
  }

  function Size(ts: seq<Token>): (r: nat)
  {
    if |ts| == 0 then 0 else TokenSize(ts[0]) + Size(ts[1..])
  }

  /** `rest` is what remains after a non-empty prefix of `ts` was consumed. */
  predicate StrictSuffix(rest: seq<Token>, ts: seq<Token>)
  {
    |rest| < |ts| && rest == ts[|ts| - |rest|..]
  }

  lemma {:induction false} SizeDrop(ts: seq<Token>, k: nat)
    requires 0 < k <= |ts|
    ensures Size(ts[k..]) < Size(ts)
  {
    if k > 1 {
      SizeDrop(ts[1..], k - 1);
      assert ts[1..][k - 1..] == ts[k..];
    }
  }

  /** A group's contents are smaller than any sequence holding the group. */
  lemma {:induction false} SizeInner(ts: seq<Token>, k: nat)
    requires k < |ts| && (ts[k].Paren? || ts[k].Brace?)
    ensures Size(ts[k].inner) < Size(ts)
  {
    if k > 0 {
      SizeInner(ts[1..], k - 1);
    }
  }

  /** The text a type prints as, the string the visitor generator compares. */
  function Render(t: TypeRef): (r: string)
  {
    match t
    case Path(n) => n
    case Other(s) => s
  }

  predicate IsIdentStart(c: char)
  {
    ('a' <= c <= 'z') || ('A' <= c <= 'Z') || c == '_'
  }

  predicate IsIdentChar(c: char)
  {
    IsIdentStart(c) || ('0' <= c <= '9')
  }

  /** An ASCII identifier: a letter or `_`, then letters, digits or `_`. */
  predicate IsIdent(s: string)
  {
    |s| > 0 && IsIdentStart(s[0]) && forall i | 0 < i < |s| :: IsIdentChar(s[i])
  }

  /**
   * The words syn's `Ident` parser refuses as names: Rust's strict and
   * reserved keywords, and the lone `_`.
   */
  predicate IsKeyword(s: string)
  {
    s in {
      "_", "abstract", "as", "async", "await", "become", "box", "break", "const",
      "continue", "crate", "do", "dyn", "else", "enum", "extern", "false", "final",
      "fn", "for", "if", "impl", "in", "let", "loop", "macro", "match", "mod",
      "move", "mut", "override", "priv", "pub", "ref", "return", "Self", "self",
      "static", "struct", "super", "trait", "true", "try", "type", "typeof",
      "unsafe", "unsized", "use", "virtual", "where", "while", "yield"
    }
  }

  /**
   * Every identifier token, at any depth, holds an identifier that is not a
   * keyword (syn would refuse it as a name), and a `Ty`
   * token holds a longer type expression, never a bare identifier (which
   * the lexer hands over as an `Ident`).
   */
  predicate WellLexedToken(t: Token)
  {
    match t
    case Ident(s) => IsIdent(s) && !IsKeyword(s)
    case Ty(ty) => ty.Other? && !IsIdent(ty.text)
    case Paren(c) => WellLexed(c)
    case Brace(c) => WellLexed(c)
    case _ => true
  }

  predicate WellLexed(ts: seq<Token>)
  {
    forall i | 0 <= i < |ts| :: WellLexedToken(ts[i])
  }

  function LowerChar(c: char): (r: char)
    ensures 'A' <= c <= 'Z' ==> 'a' <= r <= 'z' && r as int - c as int == 32
    ensures !('A' <= c <= 'Z') ==> r == c
  {
    if 'A' <= c <= 'Z' then (c as int + 32) as char else c
  }

  /** ASCII lower-casing, position by position. */
  function Lower(s: string): (r: string)
    ensures |r| == |s|
    ensures forall i | 0 <= i < |s| :: r[i] == LowerChar(s[i])
  {
    if |s| == 0 then [] else [LowerChar(s[0])] + Lower(s[1..])
  }

  /** Two names lower-case alike exactly when they agree up to ASCII case. */
  predicate SameIgnoringCase(a: string, b: string)
  {
    |a| == |b| && forall i | 0 <= i < |a| :: LowerChar(a[i]) == LowerChar(b[i])
  }

  lemma LowerCollides(a: string, b: string)
    ensures Lower(a) == Lower(b) <==> SameIgnoringCase(a, b)
  {
    if SameIgnoringCase(a, b) {
      assert forall i | 0 <= i < |a| :: Lower(a)[i] == Lower(b)[i];
    }
    if Lower(a) == Lower(b) {
      assert forall i | 0 <= i < |a| :: LowerChar(a[i]) == Lower(a)[i];
    }
  }
}

=== FILE: visit.dfy ===
/**
 * The visitor generator: the set of names the grammar defines, one
 * `visit_<name>` function per enum in the type table, and the set of
 * cases that the generator's recursion filter would select. The generator
 * builds that filter lazily and never evaluates it, so nothing is emitted
 * from it.
 */
module Visit {
  import opened Wrappers
  import opened Tokens
  import opened Ast
  import opened Grammar

  datatype Visitor = Visitor(newIdents: set<string>, context: Context)

  /** The names of the entries of a table. */
  function NameSet(ts: seq<NewType>): (names: set<string>)
    ensures forall i | 0 <= i < |ts| :: Name(ts[i]) in names
    ensures forall s | s in names :: exists i | 0 <= i < |ts| :: Name(ts[i]) == s
  {
    if |ts| == 0 then {}
    else
      var rest := NameSet(ts[1..]);
      assert forall s | s in rest :: exists i | 1 <= i < |ts| :: Name(ts[i]) == s by {
        forall s | s in rest
          ensures exists i | 1 <= i < |ts| :: Name(ts[i]) == s
        {
          var j :| 0 <= j < |ts[1..]| && Name(ts[1..][j]) == s;
          assert Name(ts[1 + j]) == s;
        }
      }
      {Name(ts[0])} + rest
  }

  /** The visitor of a context knows exactly the names its table defines. */
  function NewVisitor(ctx: Context): (vis: Visitor)
    ensures vis.context == ctx
    ensures forall n | n in ctx.newTypes :: Name(n) in vis.newIdents
    ensures forall s | s in vis.newIdents :: exists n | n in ctx.newTypes :: Name(n) == s
  {
    var names := NameSet(ctx.newTypes);
    assert forall s | s in names :: exists n | n in ctx.newTypes :: Name(n) == s by {
      forall s | s in names
        ensures exists n | n in ctx.newTypes :: Name(n) == s
      {
        var i :| 0 <= i < |ctx.newTypes| && Name(ctx.newTypes[i]) == s;
        assert ctx.newTypes[i] in ctx.newTypes;
      }
    }
    Visitor(names, ctx)
  }

  /** No two entries of the table share a name. */
  predicate NamesDistinct(ts: seq<NewType>)
  {
    forall i, j | 0 <= i < j < |ts| :: Name(ts[i]) != Name(ts[j])
  }

  /**
   * The name set is never larger than the table, and it is exactly as large
   * when no two entries share a name: a repeated definition collapses into
   * one name without complaint.
   */
  lemma {:induction false} NameSetSize(ts: seq<NewType>)
    ensures |NameSet(ts)| <= |ts|
    ensures |NameSet(ts)| == |ts| <==> NamesDistinct(ts)
  {
    if |ts| > 0 {
      var rest := NameSet(ts[1..]);
      NameSetSize(ts[1..]);
      DistinctCons(ts);
      assert NameSet(ts) == {Name(ts[0])} + rest;
      if Name(ts[0]) in rest {
        assert NameSet(ts) == rest;
      }
    }
  }

  /** A table has distinct names when its tail does and its head's name is new. */
  lemma DistinctCons(ts: seq<NewType>)
    requires |ts| > 0
    ensures NamesDistinct(ts) <==> NamesDistinct(ts[1..]) && Name(ts[0]) !in NameSet(ts[1..])
  {
    var tail := ts[1..];
    if Name(ts[0]) in NameSet(tail) {
      var j :| 0 <= j < |tail| && Name(tail[j]) == Name(ts[0]);
      assert Name(ts[1 + j]) == Name(ts[0]);
    }
    if NamesDistinct(ts) {
      forall i, j | 0 <= i < j < |tail|
        ensures Name(tail[i]) != Name(tail[j])
      {
        assert tail[i] == ts[1 + i] && tail[j] == ts[1 + j];
      }
    }
    if NamesDistinct(tail) && Name(ts[0]) !in NameSet(tail) {
      forall i, j | 0 <= i < j < |ts|
        ensures Name(ts[i]) != Name(ts[j])
      {
        assert ts[j] == tail[j - 1];
        if i > 0 {
          assert ts[i] == tail[i - 1];
        }
      }
    }
  }

  // ------------------------------------------------------ visit functions

  /**
   * `fn visit_<lower>(v: &mut impl Visitor, <lower>: <Name>) {}`: the
   * visitor parameter is implicit, and the body is empty.
   */
  datatype VisitFn = VisitFn(name: string, param: string, paramType: TypeRef)

  function VisitName(name: string): (r: string)
  {
    "visit_" + Lower(name)
  }

  function VisitOf(e: EnumType): (r: VisitFn)
  {
    VisitFn(VisitName(e.name), Lower(e.name), Path(e.name))
  }

  /** The function generated for one table entry: one for an enum, nothing otherwise. */
  function SingleFunc(vis: Visitor, n: NewType): (r: Option<VisitFn>)
    ensures r.Some? <==> n.Enum?
    ensures n.Enum? ==> r.value.paramType == RefTo(n) && r.value.name == VisitName(Name(n))
    ensures n.Enum? ==> r.value.param == Lower(Name(n)) && r.value.name == "visit_" + r.value.param
  {
    match n
    case Enum(e) => Some(VisitOf(e))
    case Struct(_) => None
    case Wrapper(_) => None
  }

  /** The enums of a table, in table order. */
  function Enums(ts: seq<NewType>): (es: seq<EnumType>)
    ensures forall e | e in es :: Enum(e) in ts
    ensures forall n | n in ts && n.Enum? :: n.e in es
  {
    if |ts| == 0 then []
    else (if ts[0].Enum? then [ts[0].e] else []) + Enums(ts[1..])
  }

  /** The functions generated for a run of table entries, in table order. */
  function Emitted(vis: Visitor, ts: seq<NewType>): (r: seq<VisitFn>)
  {
    if |ts| == 0 then []
    else
      var head := SingleFunc(vis, ts[0]);
      (if head.Some? then [head.value] else []) + Emitted(vis, ts[1..])
  }

  function FuncImpl(vis: Visitor): (r: seq<VisitFn>)
  {
    Emitted(vis, vis.context.newTypes)
  }

  /** The functions emitted are the visits of the table's enums, one each, in table order. */
  lemma {:induction false} EmittedAreEnumVisits(vis: Visitor, ts: seq<NewType>)
    ensures var fs, es := Emitted(vis, ts), Enums(ts);
      |fs| == |es| && forall i | 0 <= i < |es| :: fs[i] == VisitOf(es[i])
  {
    if |ts| > 0 {
      EmittedAreEnumVisits(vis, ts[1..]);
    }
  }

  /**
   * A visitor has a function for an enum of the table exactly when the
   * table holds it, and none for the structs and wrappers.
   */
  lemma FuncImplCoversEnums(vis: Visitor)
    ensures forall e | Enum(e) in vis.context.newTypes :: VisitOf(e) in FuncImpl(vis)
    ensures forall f | f in FuncImpl(vis) :: exists e | Enum(e) in vis.context.newTypes :: f == VisitOf(e)
  {
    var ts := vis.context.newTypes;
    var fs, es := FuncImpl(vis), Enums(ts);
    EmittedAreEnumVisits(vis, ts);
    forall e | Enum(e) in ts
      ensures VisitOf(e) in fs
    {
      var i :| 0 <= i < |es| && es[i] == e;
      assert fs[i] == VisitOf(e);
    }
    forall f | f in fs
      ensures exists e | Enum(e) in ts :: f == VisitOf(e)
    {
      var i :| 0 <= i < |fs| && fs[i] == f;
      assert es[i] in es;
    }
  }

  lemma VisitNameInjective(a: string, b: string)
    requires VisitName(a) == VisitName(b)
    ensures Lower(a) == Lower(b)
  {
    var p := "visit_";
    assert Lower(a) == VisitName(a)[|p|..];
    assert Lower(b) == VisitName(b)[|p|..];
  }

  /**
   * Two enums get visit functions of the same name exactly when their
   * names agree up to ASCII case: the generator does not check this.
   */
  lemma VisitNameClash(a: string, b: string)
    ensures VisitName(a) == VisitName(b) <==> SameIgnoringCase(a, b)
  {
    LowerCollides(a, b);
    if VisitName(a) == VisitName(b) {
      VisitNameInjective(a, b);
    }
  }

  // ------------------------------------------------------ recursion filter

  /** The text a case's payload type prints as; the empty string for a case without one. */
  function PayloadText(v: Variant): (r: string)
  {
    if v.ty.Some? then Tokens.Render(v.ty.value) else ""
  }

  /**
   * The cases the generator's recursion filter would select: those whose
   * payload type prints as the name of a table entry, in declaration order.
   * The generator only builds this filter as a lazy iterator and never
   * evaluates it; this function is the set it would select if it were
   * consumed.
   */
  function VariantsToRecurse(vis: Visitor, vs: seq<Variant>): (r: seq<Variant>)
  {
    if |vs| == 0 then []
    else (if PayloadText(vs[0]) in vis.newIdents then [vs[0]] else []) + VariantsToRecurse(vis, vs[1..])
  }

  /** The filter keeps exactly the cases whose payload names a table entry. */
  lemma {:induction false} RecurseMembers(vis: Visitor, vs: seq<Variant>)
    ensures forall v | v in VariantsToRecurse(vis, vs) :: v in vs && PayloadText(v) in vis.newIdents
    ensures forall v | v in vs && PayloadText(v) in vis.newIdents :: v in VariantsToRecurse(vis, vs)
    ensures |VariantsToRecurse(vis, vs)| <= |vs|
  {
    if |vs| > 0 {
      RecurseMembers(vis, vs[1..]);
      assert forall v | v in vs[1..] :: v in vs;
      assert forall v | v in vs :: v == vs[0] || v in vs[1..];
    }
  }

  /** The filter keeps the cases' order: it is the cases that pass, merged over any split. */
  lemma {:induction false} RecurseAppend(vis: Visitor, a: seq<Variant>, b: seq<Variant>)
    ensures VariantsToRecurse(vis, a + b) == VariantsToRecurse(vis, a) + VariantsToRecurse(vis, b)
  {
    if |a| == 0 {
      assert a + b == b;
    } else {
      var head := if PayloadText(a[0]) in vis.newIdents then [a[0]] else [];
      var ab := a + b;
      assert ab[0] == a[0];
      assert ab[1..] == a[1..] + b;
      calc {
        VariantsToRecurse(vis, ab);
        head + VariantsToRecurse(vis, ab[1..]);
        { RecurseAppend(vis, a[1..], b); }
        head + (VariantsToRecurse(vis, a[1..]) + VariantsToRecurse(vis, b));
        (head + VariantsToRecurse(vis, a[1..])) + VariantsToRecurse(vis, b);
      }
    }
  }

  /**
   * With identifier names in the table, a case without a payload and a case
   * whose payload is not a bare identifier (`Box<Expr>`, printing with
   * spaces and brackets) are never recursed into.
   */
  lemma NeverRecursed(vis: Visitor, v: Variant)
    requires forall s | s in vis.newIdents :: IsIdent(s)
    requires v.ty.None? || (v.ty.value.Other? && !IsIdent(v.ty.value.text))
    ensures v !in VariantsToRecurse(vis, [v])
  {
    assert PayloadText(v) !in vis.newIdents;
  }

  /**
   * For a parsed grammar the filter finds every definition: each case of an
   * enum of the table that defines a type inline is recursed into, and when
   * the input is well lexed the cases without payload are not.
   */
  lemma RecursesIntoDefinitions(toks: seq<Token>, x: NewType)
    requires ParseContext(toks).Ok?
    requires x in ParseContext(toks).value.newTypes && x.Enum?
    ensures var vis := NewVisitor(ParseContext(toks).value);
      forall v | v in x.e.variants && v.newType.Some? :: v in VariantsToRecurse(vis, x.e.variants)
    ensures var vis := NewVisitor(ParseContext(toks).value);
      WellLexed(toks) ==> forall v | v in VariantsToRecurse(vis, x.e.variants) :: v.ty.Some?
  {
    var ctx := ParseContext(toks).value;
    var vis := NewVisitor(ctx);
    ParseContextFacts(toks);
    RecurseMembers(vis, x.e.variants);
    forall v | v in x.e.variants && v.newType.Some?
      ensures PayloadText(v) in vis.newIdents
    {
      var c := v.newType.value;
      assert c in InlineChildren(x);
      assert c in ctx.newTypes;
      assert WellFormedVariant(v);
    }
    if WellLexed(toks) {
      assert "" !in vis.newIdents;
    }
  }
}

=== FILE: wrappers.dfy ===
/** Failure-compatible Option and Result types used throughout the model. */
module Wrappers {

  datatype Option<+T> = None | Some(value: T)

  /** The outcome of a fallible step: a value, or the error that aborted it. */
  datatype Result<+T, +E> = Ok(value: T) | Err(error: E) {

    predicate IsFailure() {
      Err?
    }

    function PropagateFailure<U>(): Result<U, E>
      requires Err?
    {
      Err(error)
    }

    function Extract(): T
      requires Ok?
    {
      value
    }
  }
}
